=== FILE: README.md ===
# Text pipeline and shell core, modelled in Dafny

This project models the core of two C programs from an operating-systems course.

**Project3/project3.c** is a multi-threaded text pipeline. `read_file` reads every line of the file into global arrays of 1000 entries, without checking that bound. Each line carries a status code (0 not read, 1 read, 3 ready to write, 4 written), two flags (`upper_done`, `replace_done`) and its own mutex. Four pools of threads sweep over the lines:

- readers mark an unread line as read;
- upper-casers apply `toupper` to every character;
- replacers turn every space into an underscore;
- writers append a ready line to the output file, mark it written and count it in `processed_lines`.

A writer leaves its polling loop once the counter reaches the number of lines.

Every critical section runs under the line's mutex, so the model treats each one as one atomic step on one line record (`LineMachine`). A run of the program is any interleaving of such steps (`Pipeline.Run` over a sequence of `Action`s). The model proves the following for all interleavings:

- an invariant holds after every step;
- no line goes back to an earlier status;
- the counter equals the number of lines written;
- the output holds exactly the written lines' contents, where the output means the records `fprintf` accepted (see "## Left out" for `fflush`).

From these it follows that a writer may stop only when every line has been written. At that point the output is every input line upper-cased and space-replaced, once each, in some order. One schedule is proved to finish with the output in input order. Another, in which each thread still visits the lines in increasing order, is proved to produce output out of input order.

**Project2/myshell.c** is a small shell. The model covers five parts of it:

- `parse_command` (`Tokenizer`, `CommandParser`): splitting at the first `|`, `strtok` tokenisation, the `<`, `>`, `>>`, `2>` and `&` operators.
- The ten-entry command history kept newest first, and `history -i n`, both as the prompt loop of `main` drives them line by line (`History`). The index goes through `atoi` (`Numerals`).
- `already_in_list`.
- The job-list updates (`Jobs`) of `fg`, of `sigtstp_handler`, and of `execute_command` and `execute_with_redirection` when they list a job.
- The `exit` guard (`Jobs`).

`parse_command` is given twice:

- a specification `CommandParser.ParseCommand`, which groups tokens into redirection items and folds over them;
- the token loop itself, `CommandParser.ParseLine`, proved equal to the specification.

`wrappers.dfy` holds the `Option` and `Result` types used for absent values and error paths.

## Model

| member | source | states |
|---|---|---|
| LineMachine.ToUpperChar | Project3/project3.c:203 | `toupper` maps exactly the lower-case ASCII letters to their upper-case counterparts and leaves every other character unchanged |
| LineMachine.Upper | Project3/project3.c:202-204 | the result has the same length and each character is `toupper` of the original one |
| LineMachine.Replace | Project3/project3.c:172-176 | the result has the same length; each space becomes `_`; every other character is kept |
| LineMachine.UpperReplaceCommute | Project3/project3.c:170-213 | upper-casing then replacing gives the same text as replacing then upper-casing, so the order in which the two threads reach a line does not matter |
| LineMachine.TransformsIdempotent | Project3/project3.c:172-204 | applying either transform twice gives the same result as applying it once |
| LineMachine.ReadStep | Project3/project3.c:153-159 | the reader changes a line exactly when its status is 0; it then sets status 1 and leaves content and flags alone |
| LineMachine.UpperStep | Project3/project3.c:197-215 | the upper step fires only on a read line not yet upper-cased; it upper-cases every character and sets `upper_done`; status becomes 3 exactly when `replace_done` was already set |
| LineMachine.ReplaceStep | Project3/project3.c:169-186 | the replace step fires only when status is 1 or the line is already upper-cased, and `replace_done` is unset; it replaces every space and sets `replace_done`; status becomes 3 exactly when `upper_done` was already set |
| LineMachine.WriteStep | Project3/project3.c:228-253 | a line changes exactly when its status is 3 and the append succeeded; it then reaches status 4, and content and flags are unchanged |
| LineMachine.StepsIdempotent | Project3/project3.c:154-230 | re-running any critical section right after itself changes nothing, since each guard refuses work already done |
| LineMachine.StepsPreserveConsistency | Project3/project3.c:150-253 | on a consistent line, every critical section gives a consistent line that has only moved forward. Consistent means: status in {0,1,3,4}, status 2 never produced, status at least 3 iff both flags are set, and content equal to the original with each done transform applied once |
| LineMachine.RemoveNewline | Project3/project3.c:268-281 | drops exactly one trailing newline when there is one; otherwise returns the text unchanged |
| LineMachine.RemoveNewlineUndoesOneNewline | Project3/project3.c:276-279 | stripping undoes appending one newline, and only one newline is ever removed |
| LineMachine.WriteRecordAsWritten | Project3/project3.c:238 | no contract of its own: the record the writer appends, the line's content followed by one newline; stated by `LineMachine.WriteRecordAsWrittenDoublesNewline` |
| LineMachine.TransformsKeepNewline | Project3/project3.c:172-204 | after both transforms a line ends in a newline iff it did before, since neither transform changes a newline |
| LineMachine.WriteRecordAsWrittenDoublesNewline | Project3/project3.c:238 | as written, a line kept with its `fgets` newline is appended as a record ending in two newlines |
| LineMachine.WriteRecordKeepsLineStructure | Project3/project3.c:142-143 | with the newline stripped first, as the corrected record `LineMachine.WriteRecord` does, a line as `fgets` delivers it is written back as exactly one newline-terminated line, identical to the input line when that ended in a newline |
| Pipeline.Init | Project3/project3.c:58-65 | before any thread starts, every line is unread with both flags clear, the counter is 0 and nothing is written |
| Pipeline.FinishedRecordDoublesNewline | Project3/project3.c:142-238 | every input line read with its newline reaches the output file, after both transforms, as a record ending in two newlines |
| Pipeline.InitEstablishesInv | Project3/project3.c:58-65 | the initial state satisfies the pipeline invariant |
| Pipeline.Step | Project3/project3.c:150-253 | a critical section touches only its own line; non-writers leave counter and output alone; a failed or premature write changes nothing; a successful write of a ready line marks it written, bumps the counter and appends its content |
| Pipeline.StepPreservesInv | Project3/project3.c:150-253 | every critical section preserves the invariant: lines stay consistent with their input, the counter equals the number of appended lines, and the output holds exactly the contents of the written lines |
| Pipeline.Run | Project3/project3.c:74-116 | any interleaving of critical sections keeps the input and the number of lines |
| Pipeline.RunPreservesInv | Project3/project3.c:74-116 | the invariant holds after every interleaving of the four thread pools' critical sections |
| Pipeline.StepProgresses | Project3/project3.c:150-253 | one critical section never moves a status or flag back, never changes a written line, and only extends the output |
| Pipeline.RunProgresses | Project3/project3.c:74-116 | along any interleaving, statuses and flags only move forward, the counter never decreases and the output only grows at its end |
| Pipeline.CounterCountsWritten | Project3/project3.c:245-248 | `processed_lines` always equals the number of lines at status 4, hence lies between 0 and `total_lines` |
| Pipeline.WriterMayExit | Project3/project3.c:257 | no contract of its own: the writer's exit test `processed_lines >= total_lines`; its meaning is stated by `Pipeline.WriterExitsOnlyWhenAllWritten` |
| Pipeline.WriterExitsOnlyWhenAllWritten | Project3/project3.c:256-260 | the writer's exit test `processed_lines >= total_lines` holds exactly when every line has status 4 |
| Pipeline.CompletedOutput | Project3/project3.c:230-249 | once every line is written, the output holds each input line upper-cased and space-replaced exactly once, as a multiset |
| Pipeline.Sweep | Project3/project3.c:152-227 | one pass of a worker's `for` loop over the lines: it has one action per index from `from` to `n - 1`, in increasing order, each of the worker's kind |
| Pipeline.SequentialScheduleCompletes | Project3/project3.c:74-116 | with one reader, then one upper-caser, then one replacer, then one writer, each sweeping all lines once: every line is written, the output equals the finished lines in input order, and the writer may exit |
| Pipeline.OutputOrderNotGuaranteed | Project3/project3.c:150-253 | on the two lines "a\n" and "b\n", as `fgets` returns them, an interleaving in which every thread visits the lines in increasing order writes "B\n" before "A\n", so the output order need not follow the input |
| Pipeline.BothUpperCased | Project3/project3.c:150-215 | the first five sections of that interleaving leave both lines read and upper-cased, none written and the counter at 0 |
| Pipeline.BothWrittenInReverse | Project3/project3.c:166-253 | from there, replacing both lines and then writing line 1 before line 0 appends "B\n" and then "A\n" |
| Pipeline.ValidateThreadCounts | Project3/project3.c:52-56 | the configuration is accepted exactly when all four thread counts are positive, and is then returned unchanged |
| Tokenizer.Tokens | Project2/myshell.c:254-276 | every token `strtok` returns is non-empty and contains no space, tab or newline |
| Tokenizer.TokensOfJoin | Project2/myshell.c:242-247 | tokenising tokens joined with spaces gives back exactly those tokens |
| Tokenizer.TokensOfLayout | Project2/myshell.c:242-276 | for any tokens laid out with any runs of spaces, tabs and newlines before, between and after them (non-empty between), `strtok` returns exactly those tokens: tokens are the maximal delimiter-free runs |
| Tokenizer.TokensSkipDelimiters | Project2/myshell.c:242-276 | leading delimiters never produce a token |
| Tokenizer.TokensTakeWholeToken | Project2/myshell.c:242-276 | a token followed by a delimiter or the end of the line is returned whole, and the tokens of the rest follow it |
| Tokenizer.TokensKeepEveryOtherCharacter | Project2/myshell.c:242-247 | the tokens concatenated equal the line with every delimiter removed; no other character is lost or added |
| CommandParser.GroupLosesNothing | Project2/myshell.c:256-277 | grouping tokens into redirection items (`CommandParser.Group`) loses no token, since ungrouping gives them back, and yields a well-formed item list |
| CommandParser.GroupUngroup | Project2/myshell.c:256-277 | any well-formed item list is read back exactly from its tokens, so the grouping is a bijection onto well-formed lists |
| CommandParser.Cleared | Project2/myshell.c:229-233 | no contract of its own: the record before the loop, with empty argument and pipe vectors, no files, and both flags 0 |
| CommandParser.Interpret | Project2/myshell.c:256-277 | no contract of its own: the items of the token loop applied to the record from the left; its meaning is stated by `CommandParser.InterpretCollects` and `CommandParser.InterpretFollowsLastRedirections` |
| CommandParser.Effect | Project2/myshell.c:257-275 | no contract of its own: what one item does to the record; its cumulative meaning is stated by `CommandParser.InterpretCollects` and `CommandParser.InterpretFollowsLastRedirections` |
| CommandParser.LastRedirect | Project2/myshell.c:257-270 | the reference definition of the redirection fields: the last redirection of the given kinds, and always one of those kinds |
| CommandParser.InterpretFollowsLastRedirections | Project2/myshell.c:257-270 | after the loop, the input, output and error files are those of the last `<`, last `>` or `>>`, and last `2>`, each keeping its earlier value when there is none; the append flag is set iff the last output redirection is `>>` |
| CommandParser.RedirectionsAroundAWord | Project2/myshell.c:257-275 | concretely, in `cat < in -n > out` the word between the redirections joins the arguments and leaves both files set |
| CommandParser.InterpretCollects | Project2/myshell.c:271-278 | the argument vector collects exactly the words in order, `background` is set exactly when some `&` occurs, and the pipe arguments are untouched |
| CommandParser.Head | Project2/myshell.c:236-251 | no contract of its own: the text before the first pipe symbol, or the whole line without one; used by `CommandParser.ParseCommand` |
| CommandParser.PipeTail | Project2/myshell.c:236-251 | no contract of its own: the tokens after the first pipe symbol, or none; its properties are ensures of `CommandParser.ParseCommand` |
| CommandParser.FindPipe | Project2/myshell.c:236 | `strchr` finds nothing exactly when the line has no pipe symbol, and otherwise returns the first one |
| CommandParser.ParseCommand | Project2/myshell.c:228-279 | no argument is an operator token; the arguments are the words of the text before the first pipe symbol; `background` is set iff an `&` item occurs; the input, output and error files and the append flag follow the last redirection of each kind, as in `CommandParser.InterpretFollowsLastRedirections`; the pipe arguments are the tokens after the first pipe symbol, and empty when there is none |
| CommandParser.TextAfterPipeOnlyReachesPipeArgs | Project2/myshell.c:236-251 | everything but the pipe arguments is determined by the text before the first pipe symbol |
| CommandParser.PlainLineIsItsTokens | Project2/myshell.c:229-278 | a line with no pipe symbol and no operator tokens parses to exactly its tokens, with no files and both flags at 0 |
| CommandParser.PlainLayoutArgs | Project2/myshell.c:228-279 | a line laid out from plain tokens, with any delimiter runs and no pipe symbol, has exactly those tokens as its arguments |
| CommandParser.ParseLine | Project2/myshell.c:253-278 | the token loop, where an operator consumes the next token, computes exactly `ParseCommand` |
| History.Recordable | Project2/myshell.c:434 | no contract of its own: a line is recorded unless its first seven characters are `history` |
| History.Push | Project2/myshell.c:435-446 | the new line is at index 0, older entries move down one place, and the oldest is dropped when ten are held |
| History.Record | Project2/myshell.c:434-447 | the history never holds more than ten entries |
| History.Session | Project2/myshell.c:428-447 | the history after only the recording block has seen a session of lines never holds more than ten entries; its contents are stated by `History.SessionKeepsMostRecent`; the whole prompt loop is `History.PromptSession` |
| History.SessionKeepsMostRecent | Project2/myshell.c:428-447 | after the recording block has seen any session, the history is the ten most recent lines not starting with `history`, newest first, followed by the earlier entries |
| History.SessionEntriesRecordable | Project2/myshell.c:434 | no entry of the history starts with `history` |
| History.RerunAsWritten | Project2/myshell.c:117-169 | `history -i n` fails without an index or with one outside the history; otherwise it executes entry n but files entry n-1 (entry 0 for n = 0) at the front |
| History.RerunAsWrittenRecordsWrongEntry | Project2/myshell.c:144-159 | concretely, re-running entry 1 of ["ls\n", "pwd\n"] executes "pwd\n" but files "ls\n" again |
| History.RerunAsWrittenAgreesOnlyWhenNeighboursEqual | Project2/myshell.c:144-159 | the code as written agrees with the intended behaviour iff n is 0 or entries n-1 and n are equal |
| History.Rerun | Project2/myshell.c:117-169 | `history -i n` has the same error cases; on success it executes entry n and files that same entry at the front |
| History.RerunIsLikeRetyping | Project2/myshell.c:144-159 | re-running an entry leaves the history exactly as typing that line again would |
| Numerals.Atoi | Project2/myshell.c:120 | no contract of its own: `atoi` on the index argument, skipping white space, reading one sign and then the leading digits; stated by `Numerals.AtoiOfDecimal` |
| Numerals.Decimal | Project2/myshell.c:120 | the decimal numeral of a natural number is non-empty, all digits and without a leading zero |
| Numerals.AtoiOfDecimal | Project2/myshell.c:120 | `atoi` reads back every decimal numeral, with or without a minus sign, whatever non-digit text follows it |
| History.RerunRequest | Project2/myshell.c:116-124 | an argument vector asks for a re-run iff its first two arguments are `history` and `-i`; the index is present iff there is a third argument, and is then `atoi` of it |
| History.HandleLine | Project2/myshell.c:430-455 | one pass of the prompt loop never leaves more than ten entries, and on a line that is not `history -i` it only records the line |
| History.PromptSession | Project2/myshell.c:428-455 | the history after the prompt loop has handled a session of lines, each recorded and then, for `history -i`, re-run as written, never holds more than ten entries |
| History.PromptSessionWithoutRerun | Project2/myshell.c:428-455 | in a session without `history -i` the prompt loop leaves the history that recording alone gives: the ten most recent recordable lines, newest first, followed by the earlier entries |
| History.TypedRerunFilesNeighbour | Project2/myshell.c:434-455 | concretely, typing "ls\n", "pwd\n" and "history -i 1\n" on an empty history executes "ls\n" and leaves ["pwd\n", "pwd\n", "ls\n"], while recording alone leaves ["pwd\n", "ls\n"] |
| History.TypedRerunArgs | Project2/myshell.c:449 | `parse_command` gives those three lines the argument vectors ["ls"], ["pwd"] and ["history", "-i", "1"] |
| Jobs.AlreadyInList | Project2/myshell.c:389-396 | returns true exactly when some listed job has the pid |
| Jobs.RemoveJob | Project2/myshell.c:211-215 | the job at k is removed, earlier jobs keep their places and later ones move up one |
| Jobs.RemoveJobInverse | Project2/myshell.c:211-215 | putting the removed job back at k restores the list |
| Jobs.AddSuspended | Project2/myshell.c:196-205 | the pid is added as "Suspended process" iff it is not listed and the list is not full; it is listed afterwards unless the list was full |
| Jobs.JobNumber | Project2/myshell.c:179 | no contract of its own: `atoi` of the argument of `fg` without its first character, whatever that character is; its effect is stated by `Jobs.JobNumberDropsFirstCharacter` |
| Jobs.JobNumberDropsFirstCharacter | Project2/myshell.c:179 | concretely, `fg %1` selects job 1, while `fg 2` selects job 0 and `fg 12` selects job 2 |
| Jobs.Foreground | Project2/myshell.c:178-223 | `fg %n` succeeds iff 0 <= n < bg_count; a job that stops again leaves the list unchanged; a job that ends is removed with the others shifted up |
| Jobs.ForegroundEndedListing | Project2/myshell.c:207-216 | after `fg` on a job that ended, a pid is listed iff some other entry of the old list had it |
| Jobs.ForegroundKeepsPidsDistinct | Project2/myshell.c:193-216 | on a list with distinct pids, `fg` keeps them distinct, and the pid of a job that ended is no longer listed |
| Jobs.AppendJob | Project2/myshell.c:93-98 | the unchecked append succeeds iff the list has room; the new entry is last, the old ones keep their places, and exactly the old pids and the new one are listed |
| Jobs.HandlerStop | Project2/myshell.c:398-417 | Ctrl+Z with no foreground job (`running_foreground_pid` at most 0) leaves the list alone; on a foreground pid it lists it as "Suspended process" unless it is listed already, and it is listed afterwards unless a full list overflowed |
| Jobs.CtrlZListsTwice | Project2/myshell.c:93-98 | when Ctrl+Z stops an unlisted foreground command, the handler and then `execute_command` each list its pid, so the list holds it twice, pids are no longer distinct, and the pid stays listed after `fg` on the second entry ends the job |
| Jobs.Exit | Project2/myshell.c:110-115 | `exit` terminates the shell iff no background job is listed |

## Left out

- Threads, mutexes, `pthread_create`/`pthread_join` and `usleep(rand() % 1000)`. Each critical section is one atomic step because it runs under its line's mutex. Scheduling is the arbitrary action sequence.
- Liveness: the model does not prove that every run reaches completion, only what holds in every state reached and that one schedule completes. The writer's polling loop is not modelled as a loop.
- `printf` logging, the unused `cond_done` and `seed`, and the cleanup in `main`. The renaming of `temp_output.txt` to the input file is also left out, because it is file-system I/O.
- File I/O in `read_file`. The input is the sequence of strings `fgets` returned. Chunking of lines longer than 1023 bytes is not modelled, and neither are embedded NUL bytes, which would end a C string early.
- Pipeline.Init: requires at most 1000 lines. `read_file` does not check the bound, so a longer file overruns the arrays, which has no defined meaning.
- Pipeline.Step: a failed `fopen` (Project3/project3.c:231-235) ends that writer thread. A failed `fprintf` (238-239) is only logged, and the line stays at status 3 for a later sweep. Both are a write with `ok` false, meaning no change. The results of `fflush` (244) and `fclose` (250) are not checked. On the buffered file a record is usually only buffered by `fprintf` and reaches the file in `fflush`, so when that delivery fails (a full disk, say) the line is still marked written and counted while its record is lost. The model does not promise delivery: its `output` is the sequence of records `fprintf` accepted, not the file's contents. A partially written record after an `fprintf` error is not modelled. The identity of the writer thread that gave up is not modelled either.
- Command-line handling of project3 (`-d`, `-n`, `atoi`). `main` accepts `argc == 7` although it reads `argv[7]`. Only the positive-count validation is modelled (`Pipeline.ValidateThreadCounts`).
- `LineMachine.ToUpperChar`: locale-dependent `toupper` beyond ASCII, and negative `char` values (undefined for `toupper`), are not modelled. Only ASCII a–z change.
- Process control in myshell: `fork`, `execv`, `pipe`, `dup2`, `open`, `waitpid`, `kill`, signals, `find_executable`, and the rest of `execute_command`, `execute_with_redirection` and `sigtstp_handler`. How a foreground job ended is an input of `Jobs.Foreground`. When signals make the job-list updates run is not modelled, beyond the one sequence in `Jobs.CtrlZListsTwice`.
- Jobs.AppendJob: it stands for the appends in `execute_command` (Project2/myshell.c:85-87 and 93-98) and `execute_with_redirection` (326-330), and `Jobs.HandlerStop` uses it for `sigtstp_handler` (405-408). None of these checks the capacity. On a full list the C code writes past `bg_processes`, which has no defined meaning; the model stops there with `ListOverflow`.
- Jobs.ForegroundKeepsPidsDistinct: it assumes distinct pids, which the shell does not maintain (`Jobs.CtrlZListsTwice`). `Jobs.ForegroundEndedListing` states what `fg` leaves listed without that assumption.
- The 128-byte line buffer of myshell. `fgets(line, sizeof(line), stdin)` (Project2/myshell.c:430) reads at most 127 bytes, so a longer input line arrives as pieces of at most 127 bytes, each read, recorded and run as a line of its own; history entries are never truncated. The model takes the lines as `fgets` returns them and does not bound their length.
- CommandParser.ParseCommand: the 32-slot `args` and `pipe_args` arrays are not bounded in the model. A line with more tokens overruns them in the C code, while the model's sequences simply grow.
- `atoi`: `History.RerunRequest` converts the index with `Numerals.Atoi`, which does not model overflow of `int`. `fg` reads its job number with `Jobs.JobNumber`, `atoi` of the argument without its first character (Project2/myshell.c:179): that character is meant to be `%` but is dropped whatever it is, so `fg 2` selects job 0 and `fg 12` selects job 2. `Jobs.Foreground` takes the converted number. `fg` without an argument falls through to external command execution, which is not modelled.
- History.SessionKeepsMostRecent: it describes only the recording block. A typed `history -i n` is not recorded (Project2/myshell.c:434) but still re-runs an entry and files one (144-159), so after such a line the history differs; `History.PromptSession` models the whole loop, `History.PromptSessionWithoutRerun` recovers this lemma for sessions without `history -i`, and `History.TypedRerunFilesNeighbour` shows the difference.
- History.PromptSession: the lines are those the shell read before `exit` or end of input; `exit` and every other internal command but `history -i` leave the history alone. An entry re-run by `history -i` goes to external execution and is never itself treated as `history -i`.
- The plain `history` listing, which is only output.
- History.RerunAsWritten: for n = 0 the C code copies `history[0]` onto itself with `strcpy`, which is undefined for overlapping buffers. The model treats it as a copy that keeps the entry.

## Findings

| source | as written | input that shows it | evidently intended | confidence | as-written member | corrected member |
|---|---|---|---|---|---|---|
| Project3/project3.c:238 | `fprintf(file, "%s\n", lines[index])` appends a newline to a line that `fgets` (lines 142-143) stored with its own newline | the input line "a b\n" is written as "A_B\n\n", followed by an empty line | one newline-terminated output line per input line, with the newline stripped first as `remove_newline_copy` does for the log | high; not executed | LineMachine.WriteRecordAsWrittenDoublesNewline | LineMachine.WriteRecordKeepsLineStructure |
| Project2/myshell.c:144-159 | the entries are shifted down before `strcpy(history[0], history[index])`, so for index ≥ 1 the copy reads the shifted array and files the entry that was at index-1 | history ["ls\n", "pwd\n"] and `history -i 1`: "pwd\n" is executed but the history becomes ["ls\n", "ls\n", "pwd\n"] | the command executed is filed at the front, as if it had been typed | high; not executed | History.RerunAsWrittenRecordsWrongEntry | History.RerunIsLikeRetyping |

The pipeline's output holds line contents, and the record format above is applied to each written content. `History.Rerun` is the corrected `history -i` on which `History.RerunIsLikeRetyping` rests.

=== FILE: command_parser.dfy ===
/**
 * `parse_command` of Project2/myshell.c: a command line becomes an argument
 * vector, the argument vector of the command after the first `|`, three
 * optional redirection files and the append and background flags.
 *
 * The reading is given in two layers. `Group` reads a token list as the items
 * of the redirection grammar (a word, an operator with the token it consumes,
 * or `&`); `Interpret` applies the items, in order, to the result record.
 * `ParseLine` is the C loop itself and is proved to compute the same thing.
 */
module CommandParser {
  import opened Wrappers
  import opened Tokenizer

  datatype RedirectKind = FromFile | ToFile | AppendToFile | ErrorsToFile

  /** One unit of the pre-pipe part of a line. A redirection's target is absent when the operator is the last token. */
  datatype Item =
    | Word(text: string)
    | Redirect(kind: RedirectKind, target: Option<string>)
    | Background

  /** Which redirection, if any, a token is: `<`, `>`, `>>` or `2>`. */
  function KindOf(t: string): Option<RedirectKind> {
    if t == "<" then Some(FromFile)
    else if t == ">" then Some(ToFile)
    else if t == ">>" then Some(AppendToFile)
    else if t == "2>" then Some(ErrorsToFile)
    else None
  }

  function OperatorText(k: RedirectKind): string {
    match k
    case FromFile => "<"
    case ToFile => ">"
    case AppendToFile => ">>"
    case ErrorsToFile => "2>"
  }

  /** Tokens `parse_command` never copies into `args` when it meets them in turn. */
  predicate IsSpecial(t: string) {
    KindOf(t).Some? || t == "&"
  }

  /** The tokens an item stands for. */
  function ItemTokens(it: Item): seq<string> {
    match it
    case Word(w) => [w]
    case Background => ["&"]
    case Redirect(k, None) => [OperatorText(k)]
    case Redirect(k, Some(f)) => [OperatorText(k), f]
  }

  function Ungroup(items: seq<Item>): seq<string> {
    if items == [] then [] else ItemTokens(items[0]) + Ungroup(items[1..])
  }

  /** Words are never operators, and only the last item may be an operator with nothing after it. */
  predicate WellFormed(items: seq<Item>) {
    forall k :: 0 <= k < |items| ==>
      && (items[k].Word? ==> !IsSpecial(items[k].text))
      && (items[k].Redirect? && items[k].target.None? ==> k == |items| - 1)
  }

  /** How the loop of `parse_command` consumes a token list: an operator takes the token after it, whatever it is. */
  function Group(ts: seq<string>): seq<Item>
    decreases |ts|
  {
    if ts == [] then []
    else if KindOf(ts[0]).Some? then
      if |ts| == 1 then [Redirect(KindOf(ts[0]).value, None)]
      else [Redirect(KindOf(ts[0]).value, Some(ts[1]))] + Group(ts[2..])
    else if ts[0] == "&" then [Background] + Group(ts[1..])
    else [Word(ts[0])] + Group(ts[1..])
  }

  /** Grouping loses no token (ungrouping gives the tokens back) and yields a well-formed item list. */
  lemma {:induction false} GroupLosesNothing(ts: seq<string>)
    ensures Ungroup(Group(ts)) == ts
    ensures WellFormed(Group(ts))
    decreases |ts|
  {
    if ts != [] && !(KindOf(ts[0]).Some? && |ts| == 1) {
      var n := if KindOf(ts[0]).Some? then 2 else 1;
      var items, rest := Group(ts), Group(ts[n..]);
      GroupLosesNothing(ts[n..]);
      assert items == [items[0]] + rest;
      assert items[1..] == rest;
      assert ItemTokens(items[0]) == ts[..n];
      assert ts == ts[..n] + ts[n..];
      forall k | 0 <= k < |items|
        ensures && (items[k].Word? ==> !IsSpecial(items[k].text))
                && (items[k].Redirect? && items[k].target.None? ==> k == |items| - 1)
      {
        if k > 0 {
          assert items[k] == rest[k - 1];
        }
      }
    }
  }

  lemma WellFormedTail(items: seq<Item>)
    requires WellFormed(items) && items != []
    ensures WellFormed(items[1..])
  {
  }

  /** Grouping the tokens of one well-formed item followed by more tokens reads that item first. */
  lemma GroupFirstItem(it: Item, more: seq<string>)
    requires it.Word? ==> !IsSpecial(it.text)
    requires it.Redirect? && it.target.None? ==> more == []
    ensures Group(ItemTokens(it) + more) == [it] + Group(more)
  {
    var ts := ItemTokens(it) + more;
    match it
    case Word(w) =>
      assert ts[1..] == more;
    case Background =>
      assert ts[1..] == more;
    case Redirect(k, None) =>
      assert ts == [OperatorText(k)];
    case Redirect(k, Some(f)) =>
      assert ts[2..] == more;
  }

  /** Grouping loses nothing: a well-formed item list is read back exactly from its tokens. */
  lemma {:induction false} GroupUngroup(items: seq<Item>)
    requires WellFormed(items)
    ensures Group(Ungroup(items)) == items
    decreases |items|
  {
    if items != [] {
      WellFormedTail(items);
      GroupUngroup(items[1..]);
      GroupFirstItem(items[0], Ungroup(items[1..]));
    }
  }

  /** What `parse_command` hands back through its out-parameters. */
  datatype Command = Command(
    args: seq<string>,
    pipeArgs: seq<string>,
    inputFile: Option<string>,
    outputFile: Option<string>,
    errorFile: Option<string>,
    appendOutput: bool,
    background: bool)

  /** The values the first five assignments of `parse_command` store. */
  const Cleared: Command := Command([], [], None, None, None, false, false)

  /** The effect of one item on the record being built. */
  function Effect(c: Command, it: Item): Command {
    match it
    case Word(w) => c.(args := c.args + [w])
    case Background => c.(background := true)
    case Redirect(FromFile, f) => c.(inputFile := f)
    case Redirect(ToFile, f) => c.(outputFile := f, appendOutput := false)
    case Redirect(AppendToFile, f) => c.(outputFile := f, appendOutput := true)
    case Redirect(ErrorsToFile, f) => c.(errorFile := f)
  }

  /** The items applied one after the other, from the left. */
  function Interpret(items: seq<Item>, c: Command): Command
    decreases |items|
  {
    if items == [] then c else Interpret(items[1..], Effect(c, items[0]))
  }

  /** The words of a list of items, in order. */
  function Words(items: seq<Item>): seq<string> {
    if items == [] then []
    else (if items[0].Word? then [items[0].text] else []) + Words(items[1..])
  }

  /** Appending one item to the list applies it last. */
  lemma {:induction false} InterpretSnoc(items: seq<Item>, it: Item, c: Command)
    ensures Interpret(items + [it], c) == Effect(Interpret(items, c), it)
    decreases |items|
  {
    if items != [] {
      assert (items + [it])[1..] == items[1..] + [it];
      InterpretSnoc(items[1..], it, Effect(c, items[0]));
    }
  }

  /** The last redirection among `items` whose kind is in `kinds`, if there is one. */
  function LastRedirect(items: seq<Item>, kinds: set<RedirectKind>): (r: Option<Item>)
    ensures r.Some? ==> r.value.Redirect? && r.value.kind in kinds
    decreases |items|
  {
    if items == [] then None
    else
      var last := items[|items| - 1];
      if last.Redirect? && last.kind in kinds then Some(last)
      else LastRedirect(items[..|items| - 1], kinds)
  }

  /** The file named by the last redirection of one of `kinds`; `otherwise` when there is none. */
  function LastTarget(items: seq<Item>, kinds: set<RedirectKind>, otherwise: Option<string>): Option<string> {
    match LastRedirect(items, kinds)
    case None => otherwise
    case Some(it) => it.target
  }

  /** Whether the last output redirection is `>>`; `otherwise` when there is none. */
  function LastIsAppend(items: seq<Item>, otherwise: bool): bool {
    match LastRedirect(items, {ToFile, AppendToFile})
    case None => otherwise
    case Some(it) => it.kind == AppendToFile
  }

  /** Appending an item makes it the last redirection of its kind, and leaves the others' last redirection alone. */
  lemma LastRedirectSnoc(init: seq<Item>, last: Item, kinds: set<RedirectKind>)
    ensures LastRedirect(init + [last], kinds)
            == if last.Redirect? && last.kind in kinds then Some(last) else LastRedirect(init, kinds)
  {
    assert (init + [last])[..|init|] == init;
  }

  /** The files and the append flag of `r` are those the last redirections among `items` set, or those of `c` for a stream with none. */
  predicate RedirectionsFollow(items: seq<Item>, c: Command, r: Command) {
    && r.inputFile == LastTarget(items, {FromFile}, c.inputFile)
    && r.outputFile == LastTarget(items, {ToFile, AppendToFile}, c.outputFile)
    && r.errorFile == LastTarget(items, {ErrorsToFile}, c.errorFile)
    && r.appendOutput == LastIsAppend(items, c.appendOutput)
  }

  /**
   * Each stream is redirected by the last operator for it and by nothing
   * else: words, `&` and the other streams' operators leave it alone, and a
   * stream with no operator keeps the value it had. `>` and `>>` share the
   * output file, and the last of them decides `append_output`.
   */
  lemma {:induction false} InterpretFollowsLastRedirections(items: seq<Item>, c: Command)
    ensures RedirectionsFollow(items, c, Interpret(items, c))
    decreases |items|
  {
    if items != [] {
      var init, last := items[..|items| - 1], items[|items| - 1];
      assert items == init + [last];
      InterpretSnoc(init, last, c);
      InterpretFollowsLastRedirections(init, c);
      LastRedirectSnoc(init, last, {FromFile});
      LastRedirectSnoc(init, last, {ToFile, AppendToFile});
      LastRedirectSnoc(init, last, {ErrorsToFile});
    }
  }

  /**
   * `args` collects the words in their original order and nothing else,
   * `background` is set by any `&`, and the pipe arguments are untouched.
   */
  lemma {:induction false} InterpretCollects(items: seq<Item>, c: Command)
    ensures Interpret(items, c).args == c.args + Words(items)
    ensures Interpret(items, c).background <==> c.background || Background in items
    ensures Interpret(items, c).pipeArgs == c.pipeArgs
    decreases |items|
  {
    if items != [] {
      InterpretCollects(items[1..], Effect(c, items[0]));
      assert items == [items[0]] + items[1..];
    }
  }

  lemma {:induction false} WordsOfWellFormed(items: seq<Item>)
    requires WellFormed(items)
    ensures forall k :: 0 <= k < |Words(items)| ==> !IsSpecial(Words(items)[k])
    decreases |items|
  {
    if items != [] {
      var rest := items[1..];
      WellFormedTail(items);
      WordsOfWellFormed(rest);
    }
  }

  /** Position of the first `|`, as `strchr(line, '|')` finds it. */
  function FindPipe(line: string): (p: Option<nat>)
    ensures p.None? <==> '|' !in line
    ensures p.Some? ==> p.value < |line| && line[p.value] == '|' && '|' !in line[..p.value]
  {
    if line == [] then None
    else if line[0] == '|' then Some(0)
    else match FindPipe(line[1..])
      case None => None
      case Some(q) => Some(q + 1)
  }

  /** The part of the line the redirection loop sees: everything before the first `|`. */
  function Head(line: string): string {
    match FindPipe(line)
    case None => line
    case Some(p) => line[..p]
  }

  /** The tokens after the first `|`, or none when the line has no `|` (`pipe_args[0] == NULL`). */
  function PipeTail(line: string): seq<string> {
    match FindPipe(line)
    case None => []
    case Some(p) => Tokens(line[p + 1..])
  }

  /** The result of `parse_command` on `line`. */
  function ParseCommand(line: string): (c: Command)
    ensures forall k :: 0 <= k < |c.args| ==> !IsSpecial(c.args[k])
    ensures c.args == Words(Group(Tokens(Head(line))))
    ensures c.background <==> Background in Group(Tokens(Head(line)))
    ensures c.pipeArgs == PipeTail(line)
    ensures '|' in line ==> forall k :: 0 <= k < |c.pipeArgs| ==> IsToken(c.pipeArgs[k])
    ensures '|' !in line ==> c.pipeArgs == []
    ensures RedirectionsFollow(Group(Tokens(Head(line))), Cleared, c)
  {
    var items := Group(Tokens(Head(line)));
    var start := Cleared.(pipeArgs := PipeTail(line));
    InterpretCollects(items, start);
    InterpretFollowsLastRedirections(items, start);
    GroupLosesNothing(Tokens(Head(line)));
    WordsOfWellFormed(items);
    Interpret(items, start)
  }

  /** The tokens of `cat < in -n > out`: a word between two redirections neither clears nor changes them. */
  lemma RedirectionsAroundAWord()
    ensures var items := Group(["cat", "<", "in", "-n", ">", "out"]);
            && items == [Word("cat"), Redirect(FromFile, Some("in")), Word("-n"), Redirect(ToFile, Some("out"))]
            && Interpret(items, Cleared)
               == Cleared.(args := ["cat", "-n"], inputFile := Some("in"), outputFile := Some("out"))
  {
    var ts := ["cat", "<", "in", "-n", ">", "out"];
    assert KindOf("cat") == None && KindOf("-n") == None;
    assert ts[1..] == ["<", "in", "-n", ">", "out"] && ts[3..] == ["-n", ">", "out"] && ts[4..] == [">", "out"];
  }

  lemma {:induction false} InterpretIgnoresPipeArgs(items: seq<Item>, c: Command, pipeArgs: seq<string>)
    ensures Interpret(items, c.(pipeArgs := pipeArgs)) == Interpret(items, c).(pipeArgs := pipeArgs)
    decreases |items|
  {
    if items != [] {
      assert Effect(c.(pipeArgs := pipeArgs), items[0]) == Effect(c, items[0]).(pipeArgs := pipeArgs);
      InterpretIgnoresPipeArgs(items[1..], Effect(c, items[0]), pipeArgs);
    }
  }

  /** Text after the first `|` only ever reaches `pipe_args`: the rest of the result is that of the text before it. */
  lemma TextAfterPipeOnlyReachesPipeArgs(line: string)
    requires '|' in line
    ensures var p := FindPipe(line).value;
            ParseCommand(line) == ParseCommand(line[..p]).(pipeArgs := Tokens(line[p + 1..]))
  {
    var p := FindPipe(line).value;
    assert FindPipe(line[..p]).None?;
    assert Head(line[..p]) == line[..p];
    var items := Group(Tokens(line[..p]));
    InterpretIgnoresPipeArgs(items, Cleared, Tokens(line[p + 1..]));
    InterpretIgnoresPipeArgs(items, Cleared, []);
  }

  lemma {:induction false} PlainTokensAreWords(ts: seq<string>, c: Command)
    requires forall k :: 0 <= k < |ts| ==> !IsSpecial(ts[k])
    ensures Interpret(Group(ts), c) == c.(args := c.args + ts)
    decreases |ts|
  {
    if ts != [] {
      PlainTokensAreWords(ts[1..], Effect(c, Word(ts[0])));
      assert c.args + ts == c.args + [ts[0]] + ts[1..];
    }
  }

  /**
   * A line without `|` and without operators is just its tokens, in order:
   * no file is set and both flags stay at 0.
   */
  lemma PlainLineIsItsTokens(line: string)
    requires '|' !in line
    requires forall k :: 0 <= k < |Tokens(line)| ==> !IsSpecial(Tokens(line)[k])
    ensures ParseCommand(line) == Cleared.(args := Tokens(line))
  {
    PlainTokensAreWords(Tokens(line), Cleared);
  }

  /** A line laid out from plain tokens, with no pipe symbol, has exactly those tokens as its arguments. */
  lemma PlainLayoutArgs(line: string, ts: seq<string>, gaps: seq<string>)
    requires forall k :: 0 <= k < |ts| ==> IsToken(ts[k]) && !IsSpecial(ts[k])
    requires ValidGaps(ts, gaps) && line == Layout(ts, gaps) && '|' !in line
    ensures ParseCommand(line).args == ts
  {
    TokensOfLayout(ts, gaps);
    PlainLineIsItsTokens(line);
  }

  /**
   * The loop of `parse_command`, token by token. An operator takes the next
   * token as its file (none if it was the last); after it `strtok` keeps
   * returning NULL, so the loop ends.
   */
  method ParseLine(line: string) returns (c: Command)
    ensures c == ParseCommand(line)
  {
    ghost var want := Interpret(Group(Tokens(Head(line))), Cleared.(pipeArgs := PipeTail(line)));
    c := Cleared;
    var head := line;
    var p := FindPipe(line);
    if p.Some? {
      c := c.(pipeArgs := Tokens(line[p.value + 1..]));
      head := line[..p.value];
    }
    var toks := Tokens(head);
    var i := 0;
    while i < |toks|
      invariant 0 <= i <= |toks|
      invariant Interpret(Group(toks[i..]), c) == want
      decreases |toks| - i
    {
      var t := toks[i];
      var next: Option<string> := if i + 1 < |toks| then Some(toks[i + 1]) else None;
      var after := if i + 1 < |toks| then i + 2 else i + 1;
      assert toks[i..][0] == t;
      if t == "<" {
        c := c.(inputFile := next);
        i := after;
      } else if t == ">" {
        c := c.(outputFile := next, appendOutput := false);
        i := after;
      } else if t == ">>" {
        c := c.(outputFile := next, appendOutput := true);
        i := after;
      } else if t == "2>" {
        c := c.(errorFile := next);
        i := after;
      } else if t == "&" {
        c := c.(background := true);
        i := i + 1;
      } else {
        c := c.(args := c.args + [t]);
        i := i + 1;
      }
    }
    assert want == ParseCommand(line);
  }
}

=== FILE: history.dfy ===
/**
 * The command history of Project2/myshell.c: `history[0..history_count)`,
 * newest first, at most `HISTORY_SIZE` entries. The array is a sequence here
 * whose length is `history_count`.
 */
module History {
  import opened Wrappers
  import CommandParser
  import Numerals

  const HISTORY_SIZE: nat := 10

  /** `main` records a line unless its first 7 characters are `history` (`strncmp(line, "history", 7)`). */
  predicate Recordable(line: string) {
    !(|line| >= 7 && line[..7] == "history")
  }

  /** Shift every entry down one place, dropping the one at index 9 when full, and store `line` at index 0. */
  function Push(h: seq<string>, line: string): (r: seq<string>)
    requires |h| <= HISTORY_SIZE
    ensures |r| == if |h| < HISTORY_SIZE then |h| + 1 else HISTORY_SIZE
    ensures r[0] == line
    ensures forall k :: 1 <= k < |r| ==> r[k] == h[k - 1]
  {
    if |h| < HISTORY_SIZE then [line] + h else [line] + h[..HISTORY_SIZE - 1]
  }

  /** The recording block of the prompt loop of `main`, which every line read passes through before it is parsed. */
  function Record(h: seq<string>, line: string): (r: seq<string>)
    requires |h| <= HISTORY_SIZE
    ensures |r| <= HISTORY_SIZE
  {
    if Recordable(line) then Push(h, line) else h
  }

  /** The history after only the recording block has seen the lines of a session, in order; `PromptSession` adds `history -i`. */
  function Session(h: seq<string>, lines: seq<string>): (r: seq<string>)
    requires |h| <= HISTORY_SIZE
    ensures |r| <= HISTORY_SIZE
    decreases |lines|
  {
    if lines == [] then h else Record(Session(h, lines[..|lines| - 1]), lines[|lines| - 1])
  }

  /** The recordable lines of a session, the most recent first. */
  function NewestFirst(lines: seq<string>): seq<string>
    decreases |lines|
  {
    if lines == [] then []
    else
      var last := lines[|lines| - 1];
      (if Recordable(last) then [last] else []) + NewestFirst(lines[..|lines| - 1])
  }

  function Take(s: seq<string>, n: nat): seq<string> {
    if |s| <= n then s else s[..n]
  }

  /** Filing a line in front of the first ten entries of a list keeps the first ten of the longer list. */
  lemma PushTake(before: seq<string>, line: string)
    ensures Push(Take(before, HISTORY_SIZE), line) == Take([line] + before, HISTORY_SIZE)
  {
  }

  /** The history holds the ten most recent recordable lines, newest first, followed by what it held before. */
  lemma {:induction false} SessionKeepsMostRecent(h: seq<string>, lines: seq<string>)
    requires |h| <= HISTORY_SIZE
    ensures Session(h, lines) == Take(NewestFirst(lines) + h, HISTORY_SIZE)
    decreases |lines|
  {
    if lines != [] {
      var init := lines[..|lines| - 1];
      var last := lines[|lines| - 1];
      SessionKeepsMostRecent(h, init);
      if Recordable(last) {
        assert NewestFirst(lines) + h == [last] + (NewestFirst(init) + h);
        PushTake(NewestFirst(init) + h, last);
      }
    }
  }

  /** Every entry of a history built by the prompt loop is a recordable line. */
  lemma {:induction false} SessionEntriesRecordable(h: seq<string>, lines: seq<string>)
    requires |h| <= HISTORY_SIZE
    requires forall k :: 0 <= k < |h| ==> Recordable(h[k])
    ensures forall k :: 0 <= k < |Session(h, lines)| ==> Recordable(Session(h, lines)[k])
    decreases |lines|
  {
    if lines != [] {
      SessionEntriesRecordable(h, lines[..|lines| - 1]);
    }
  }

  datatype RerunError = MissingIndex | InvalidIndex

  /**
   * `history -i n` as written: after checking `0 <= n < history_count` the
   * entry `history[n]` is executed, then the entries are shifted down and
   * `history[0] = history[n]` is copied from the shifted array. Returns the
   * command executed and the new history.
   */
  function RerunAsWritten(h: seq<string>, index: Option<int>): (r: Result<(string, seq<string>), RerunError>)
    requires |h| <= HISTORY_SIZE
    ensures r.Err? <==> index.None? || !(0 <= index.value < |h|)
    ensures index.None? ==> r == Err(MissingIndex)
    ensures r.Ok? ==> var n := index.value;
              && r.value.0 == h[n]
              && |r.value.1| == |Push(h, h[n])|
              && r.value.1[0] == (if n == 0 then h[0] else h[n - 1])
              && r.value.1[1..] == Push(h, h[n])[1..]
  {
    match index
    case None => Err(MissingIndex)
    case Some(n) =>
      if 0 <= n < |h| then
        var shifted := [h[0]] + (if |h| < HISTORY_SIZE then h else h[..HISTORY_SIZE - 1]);
        Ok((h[n], shifted[0 := shifted[n]]))
      else Err(InvalidIndex)
  }

  /** Re-running entry 1 of a two-entry history executes it but files entry 0 at the front again. */
  lemma RerunAsWrittenRecordsWrongEntry()
    ensures var r := RerunAsWritten(["ls\n", "pwd\n"], Some(1));
            r.Ok? && r.value.0 == "pwd\n" && r.value.1 == ["ls\n", "ls\n", "pwd\n"]
  {
  }

  /** The two versions agree exactly when the entry re-run is the first one or equals the entry above it. */
  lemma RerunAsWrittenAgreesOnlyWhenNeighboursEqual(h: seq<string>, n: int)
    requires |h| <= HISTORY_SIZE
    requires 0 <= n < |h|
    ensures RerunAsWritten(h, Some(n)) == Rerun(h, Some(n)) <==> n == 0 || h[n - 1] == h[n]
  {
    var a := RerunAsWritten(h, Some(n)).value.1;
    var b := Rerun(h, Some(n)).value.1;
    if n == 0 || h[n - 1] == h[n] {
      assert a == [a[0]] + a[1..];
      assert b == [b[0]] + b[1..];
    } else {
      assert a[0] != b[0];
    }
  }

  /** `history -i n` with the executed command itself filed at the front. */
  function Rerun(h: seq<string>, index: Option<int>): (r: Result<(string, seq<string>), RerunError>)
    requires |h| <= HISTORY_SIZE
    ensures r.Err? <==> index.None? || !(0 <= index.value < |h|)
    ensures r.Ok? ==> r.value.0 == h[index.value] && r.value.1 == Push(h, r.value.0)
  {
    match index
    case None => Err(MissingIndex)
    case Some(n) => if 0 <= n < |h| then Ok((h[n], Push(h, h[n]))) else Err(InvalidIndex)
  }

  /** Re-running an entry of a history the prompt loop built leaves the history typing that line again would. */
  lemma RerunIsLikeRetyping(h: seq<string>, lines: seq<string>, n: int)
    requires |h| <= HISTORY_SIZE
    requires forall k :: 0 <= k < |h| ==> Recordable(h[k])
    requires 0 <= n < |Session(h, lines)|
    ensures var s := Session(h, lines);
            Rerun(s, Some(n)) == Ok((s[n], Session(h, lines + [s[n]])))
  {
    var s := Session(h, lines);
    SessionEntriesRecordable(h, lines);
    assert (lines + [s[n]])[..|lines + [s[n]]| - 1] == lines;
  }

  /**
   * What `handle_internal_commands` asks of the history for an argument
   * vector: nothing, unless it is `history -i`, which asks for a re-run with
   * the index `atoi` reads from the third argument, if there is one.
   */
  function RerunRequest(args: seq<string>): (r: Option<Option<int>>)
    ensures r.Some? <==> |args| >= 2 && args[0] == "history" && args[1] == "-i"
    ensures r.Some? ==> (r.value.Some? <==> |args| >= 3)
    ensures r.Some? && |args| >= 3 ==> r.value.value == Numerals.Atoi(args[2])
  {
    if |args| >= 2 && args[0] == "history" && args[1] == "-i" then
      Some(if |args| >= 3 then Some(Numerals.Atoi(args[2])) else None)
    else None
  }

  /**
   * The prompt loop on a line whose argument vector is `args`: the line is
   * recorded, and a `history -i` command then re-runs an entry of the history
   * that already holds the line, as written.
   */
  function HandleLine(h: seq<string>, line: string, args: seq<string>): (r: seq<string>)
    requires |h| <= HISTORY_SIZE
    ensures |r| <= HISTORY_SIZE
    ensures RerunRequest(args).None? ==> r == Record(h, line)
  {
    var recorded := Record(h, line);
    match RerunRequest(args)
    case None => recorded
    case Some(index) =>
      match RerunAsWritten(recorded, index)
      case Ok(run) => run.1
      case Err(_) => recorded
  }

  /** The argument vectors are what `parse_command` makes of the lines, one for one. */
  predicate Parsed(lines: seq<string>, argss: seq<seq<string>>) {
    && |argss| == |lines|
    && forall k :: 0 <= k < |lines| ==> argss[k] == CommandParser.ParseCommand(lines[k]).args
  }

  /**
   * The history after the prompt loop has handled the lines of a session, in
   * order; `argss[k]` stands for the argument vector of `lines[k]`. It is a
   * parameter so that `parse_command` need not be unfolded here: the
   * properties below hold for any `argss`, and `Parsed` says when it is the
   * one `parse_command` gives (`TypedRerunArgs` shows it for the example).
   */
  function PromptSession(h: seq<string>, lines: seq<string>, argss: seq<seq<string>>): (r: seq<string>)
    requires |h| <= HISTORY_SIZE && |argss| == |lines|
    ensures |r| <= HISTORY_SIZE
    decreases |lines|
  {
    if lines == [] then h
    else
      var n := |lines| - 1;
      HandleLine(PromptSession(h, lines[..n], argss[..n]), lines[n], argss[n])
  }

  /** No line of the session is a `history -i` command. */
  predicate NoRerun(argss: seq<seq<string>>) {
    forall k :: 0 <= k < |argss| ==> RerunRequest(argss[k]).None?
  }

  /**
   * In a session without `history -i` the prompt loop only records, so the
   * history is the ten most recent recordable lines, newest first, followed
   * by what it held before.
   */
  lemma {:induction false} PromptSessionWithoutRerun(h: seq<string>, lines: seq<string>, argss: seq<seq<string>>)
    requires |h| <= HISTORY_SIZE && |argss| == |lines| && NoRerun(argss)
    ensures PromptSession(h, lines, argss) == Session(h, lines)
    ensures PromptSession(h, lines, argss) == Take(NewestFirst(lines) + h, HISTORY_SIZE)
    decreases |lines|
  {
    if lines != [] {
      var n := |lines| - 1;
      assert forall k :: 0 <= k < n ==> argss[..n][k] == argss[k];
      PromptSessionWithoutRerun(h, lines[..n], argss[..n]);
    }
    SessionKeepsMostRecent(h, lines);
  }

  /**
   * A typed `history -i 1` after `ls` and `pwd`: the prompt loop executes
   * "ls\n" but files "pwd\n" again, so the history is not what recording the
   * lines alone gives. `TypedRerunArgs` shows the argument vectors are those
   * of the lines.
   */
  lemma TypedRerunFilesNeighbour()
    ensures var lines := ["ls\n", "pwd\n", "history -i 1\n"];
            var argss := [["ls"], ["pwd"], ["history", "-i", "1"]];
            && PromptSession([], lines, argss) == ["pwd\n", "pwd\n", "ls\n"]
            && Session([], lines) == ["pwd\n", "ls\n"]
  {
    var lines := ["ls\n", "pwd\n", "history -i 1\n"];
    var argss := [["ls"], ["pwd"], ["history", "-i", "1"]];
    var h1, h2 := ["ls\n"], ["pwd\n", "ls\n"];
    assert Recordable("ls\n") && Recordable("pwd\n");
    assert HandleLine([], "ls\n", ["ls"]) == h1;
    assert HandleLine(h1, "pwd\n", ["pwd"]) == h2;
    HandleRerunOne();
    assert lines[..1] == ["ls\n"] && argss[..1] == [["ls"]];
    assert PromptSession([], lines[..1], argss[..1]) == h1;
    assert lines[..2] == ["ls\n", "pwd\n"] && argss[..2] == [["ls"], ["pwd"]];
    assert lines[..2][..1] == lines[..1] && argss[..2][..1] == argss[..1];
    assert PromptSession([], lines[..2], argss[..2]) == h2;
    assert Session([], lines[..1]) == h1;
    assert Session([], lines[..2]) == h2;
  }

  lemma HandleRerunOne()
    ensures RerunAsWritten(["pwd\n", "ls\n"], Some(1)) == Ok(("ls\n", ["pwd\n", "pwd\n", "ls\n"]))
    ensures HandleLine(["pwd\n", "ls\n"], "history -i 1\n", ["history", "-i", "1"]) == ["pwd\n", "pwd\n", "ls\n"]
  {
    var line := "history -i 1\n";
    assert line[..7] == "history";
    assert Numerals.Atoi("1") == 1;
    assert RerunRequest(["history", "-i", "1"]) == Some(Some(1));
    var hist := ["pwd\n", "ls\n"];
    var shifted := [hist[0]] + hist;
    assert shifted == ["pwd\n", "pwd\n", "ls\n"];
    assert shifted[0 := shifted[1]] == shifted;
    assert RerunAsWritten(hist, Some(1)) == Ok(("ls\n", shifted));
  }

  /** `parse_command` gives `ls`, `pwd` and `history -i 1` the argument vectors used above. */
  lemma TypedRerunArgs()
    ensures Parsed(["ls\n", "pwd\n", "history -i 1\n"], [["ls"], ["pwd"], ["history", "-i", "1"]])
  {
    var lines := ["ls\n", "pwd\n", "history -i 1\n"];
    var argss := [["ls"], ["pwd"], ["history", "-i", "1"]];
    forall k | 0 <= k < |lines|
      ensures argss[k] == CommandParser.ParseCommand(lines[k]).args
    {
      if k == 0 {
        OneWordArgs("ls");
        assert "ls" + "\n" == lines[0];
      } else if k == 1 {
        OneWordArgs("pwd");
        assert "pwd" + "\n" == lines[1];
      } else {
        RerunLineArgs();
      }
    }
  }

  /** A one-word command line, as `fgets` returns it, has that word as its only argument. */
  lemma OneWordArgs(w: string)
    requires w == "ls" || w == "pwd"
    ensures CommandParser.ParseCommand(w + "\n").args == [w]
  {
    assert CommandParser.Tokenizer.Layout([w], ["", "\n"]) == w + "\n";
    CommandParser.PlainLayoutArgs(w + "\n", [w], ["", "\n"]);
  }

  lemma RerunLineArgs()
    ensures CommandParser.ParseCommand("history -i 1\n").args == ["history", "-i", "1"]
  {
    RerunLineTokens();
    RerunLineLayout();
    CommandParser.PlainLayoutArgs("history -i 1\n", ["history", "-i", "1"], ["", " ", " ", "\n"]);
  }

  /** The line `history -i 1` is three tokens separated by spaces and ended by its newline, with no pipe symbol. */
  lemma RerunLineLayout()
    ensures var ts := ["history", "-i", "1"];
            && CommandParser.Tokenizer.ValidGaps(ts, ["", " ", " ", "\n"])
            && CommandParser.Tokenizer.Layout(ts, ["", " ", " ", "\n"]) == "history -i 1\n"
            && '|' !in "history -i 1\n"
  {
  }

  /** None of `history`, `-i` and `1` holds a delimiter or is an operator. */
  lemma RerunLineTokens()
    ensures var ts := ["history", "-i", "1"];
            forall k :: 0 <= k < |ts| ==> CommandParser.Tokenizer.IsToken(ts[k]) && !CommandParser.IsSpecial(ts[k])
  {
  }
}

=== FILE: jobs.dfy ===
/**
 * The background-job list of Project2/myshell.c: `bg_processes[0..bg_count)`,
 * at most `MAX_ARGS` entries, and what the `fg` and `exit` built-ins do with it.
 * Signals, `waitpid` and `kill` are not modelled: how the foreground job ended
 * is an input.
 */
module Jobs {
  import opened Wrappers
  import Numerals

  /** Capacity of `bg_processes`. */
  const MAX_ARGS: nat := 32

  /** The label stored for a job that was stopped while in the foreground. */
  const SUSPENDED: string := "Suspended process"

  datatype Job = Job(pid: int, command: string)

  /** Some listed job has process id `pid`. */
  predicate Listed(jobs: seq<Job>, pid: int) {
    exists k :: 0 <= k < |jobs| && jobs[k].pid == pid
  }

  /** `already_in_list`: a linear scan of the first `bg_count` entries. */
  method AlreadyInList(jobs: seq<Job>, pid: int) returns (found: bool)
    ensures found <==> exists k :: 0 <= k < |jobs| && jobs[k].pid == pid
  {
    var i := 0;
    while i < |jobs|
      invariant 0 <= i <= |jobs|
      invariant forall k :: 0 <= k < i ==> jobs[k].pid != pid
    {
      if jobs[i].pid == pid {
        return true;
      }
      i := i + 1;
    }
    return false;
  }

  /** The shift loop of `fg` after the job exited: entry `k` goes, later entries move up one place. */
  function RemoveJob(jobs: seq<Job>, k: nat): (r: seq<Job>)
    requires k < |jobs|
    ensures |r| == |jobs| - 1
    ensures forall j :: 0 <= j < k ==> r[j] == jobs[j]
    ensures forall j :: k <= j < |r| ==> r[j] == jobs[j + 1]
  {
    jobs[..k] + jobs[k + 1..]
  }

  /** Putting the removed entry back where it was restores the list. */
  lemma RemoveJobInverse(jobs: seq<Job>, k: nat)
    requires k < |jobs|
    ensures RemoveJob(jobs, k)[..k] + [jobs[k]] + RemoveJob(jobs, k)[k..] == jobs
  {
  }

  /** The stop branch of `fg`: list the pid again unless it is listed already or the list is full. */
  function AddSuspended(jobs: seq<Job>, pid: int): (r: seq<Job>)
    requires |jobs| <= MAX_ARGS
    ensures |r| <= MAX_ARGS
    ensures Listed(r, pid) || |jobs| == MAX_ARGS
    ensures Listed(jobs, pid) || |jobs| == MAX_ARGS ==> r == jobs
    ensures !Listed(jobs, pid) && |jobs| < MAX_ARGS ==> r == jobs + [Job(pid, SUSPENDED)]
  {
    if Listed(jobs, pid) then jobs
    else if |jobs| < MAX_ARGS then
      assert (jobs + [Job(pid, SUSPENDED)])[|jobs|].pid == pid;
      jobs + [Job(pid, SUSPENDED)]
    else jobs
  }

  /** How the waited-for foreground job ended: `WIFSTOPPED`, or `WIFEXITED`/`WIFSIGNALED`. */
  datatype WaitOutcome = Stopped | Ended

  datatype FgError = InvalidJobNumber

  /**
   * The job number `fg` reads from its argument: `atoi` of the argument
   * without its first character, which is meant to be `%` but is dropped
   * whatever it is.
   */
  function JobNumber(arg: string): int {
    if arg == [] then 0 else Numerals.Atoi(arg[1..])
  }

  /** `fg %1` selects job 1, but `fg 2` selects job 0 and `fg 12` job 2, since the first digit is dropped. */
  lemma JobNumberDropsFirstCharacter()
    ensures JobNumber("%1") == 1
    ensures JobNumber("2") == 0
    ensures JobNumber("12") == 2
  {
    assert "%1"[1..] == "1" && "2"[1..] == [] && "12"[1..] == "2";
    assert Numerals.Atoi("1") == 1 && Numerals.Atoi("2") == 2;
  }

  /**
   * `fg %n` once `JobNumber` has produced `jobNum`: the job must exist; if
   * it ends it leaves the list, if it is stopped again the list is
   * unchanged, because the stopped pid is the listed entry `jobNum` itself.
   */
  function Foreground(jobs: seq<Job>, jobNum: int, outcome: WaitOutcome): (r: Result<seq<Job>, FgError>)
    requires |jobs| <= MAX_ARGS
    ensures r.Ok? <==> 0 <= jobNum < |jobs|
    ensures r.Ok? ==> |r.value| <= MAX_ARGS
    ensures r.Ok? && outcome == Stopped ==> r.value == jobs
    ensures r.Ok? && outcome == Ended ==>
              && |r.value| == |jobs| - 1
              && (forall j :: 0 <= j < jobNum ==> r.value[j] == jobs[j])
              && (forall j :: jobNum <= j < |r.value| ==> r.value[j] == jobs[j + 1])
  {
    if !(0 <= jobNum < |jobs|) then Err(InvalidJobNumber)
    else match outcome
      case Stopped => Ok(AddSuspended(jobs, jobs[jobNum].pid))
      case Ended => Ok(RemoveJob(jobs, jobNum))
  }

  /** A job that ended leaves behind exactly the pids of the other entries. */
  lemma {:induction false} ForegroundEndedListing(jobs: seq<Job>, jobNum: int, pid: int)
    requires |jobs| <= MAX_ARGS
    requires 0 <= jobNum < |jobs|
    ensures Listed(Foreground(jobs, jobNum, Ended).value, pid) <==>
              exists k :: 0 <= k < |jobs| && k != jobNum && jobs[k].pid == pid
  {
    var r := Foreground(jobs, jobNum, Ended).value;
    if Listed(r, pid) {
      var j :| 0 <= j < |r| && r[j].pid == pid;
      if j < jobNum {
        assert jobs[j].pid == pid;
      } else {
        assert jobs[j + 1].pid == pid;
      }
    }
    if k :| 0 <= k < |jobs| && k != jobNum && jobs[k].pid == pid {
      if k < jobNum {
        assert r[k].pid == pid;
      } else {
        assert r[k - 1].pid == pid;
      }
    }
  }

  /** No two entries share a pid. */
  predicate DistinctPids(jobs: seq<Job>) {
    forall i, j :: 0 <= i < j < |jobs| ==> jobs[i].pid != jobs[j].pid
  }

  /** Where pids are distinct, `fg` keeps them distinct, and a job that ended is no longer listed. */
  lemma ForegroundKeepsPidsDistinct(jobs: seq<Job>, jobNum: int, outcome: WaitOutcome)
    requires |jobs| <= MAX_ARGS && DistinctPids(jobs)
    requires 0 <= jobNum < |jobs|
    ensures DistinctPids(Foreground(jobs, jobNum, outcome).value)
    ensures outcome == Ended ==> !Listed(Foreground(jobs, jobNum, outcome).value, jobs[jobNum].pid)
  {
  }

  /** The entry written past the end of `bg_processes`, which has no room for it. */
  datatype ListError = ListOverflow

  /**
   * The unchecked append of `execute_command` (a background job, or a
   * foreground job that stopped) and of `execute_with_redirection` (a
   * background job): on a full list the C code writes past the array, which
   * is reported here as `ListOverflow`.
   */
  function AppendJob(jobs: seq<Job>, pid: int, command: string): (r: Result<seq<Job>, ListError>)
    ensures r.Ok? <==> |jobs| < MAX_ARGS
    ensures r.Ok? ==> |r.value| == |jobs| + 1 && r.value[..|jobs|] == jobs && r.value[|jobs|] == Job(pid, command)
    ensures r.Ok? ==> forall p :: Listed(r.value, p) <==> Listed(jobs, p) || p == pid
  {
    if |jobs| < MAX_ARGS then
      var r := jobs + [Job(pid, command)];
      assert r[..|jobs|] == jobs;
      assert forall p :: Listed(jobs, p) ==> Listed(r, p) by {
        forall p | Listed(jobs, p) ensures Listed(r, p) {
          var k :| 0 <= k < |jobs| && jobs[k].pid == p;
          assert r[k].pid == p;
        }
      }
      assert r[|jobs|].pid == pid;
      Ok(r)
    else Err(ListOverflow)
  }

  /**
   * `sigtstp_handler` on Ctrl+Z, where `pid` is `running_foreground_pid`
   * (-1 when no foreground job runs): a positive pid is listed unless it is
   * listed already; otherwise the list is left alone.
   */
  function HandlerStop(jobs: seq<Job>, pid: int): (r: Result<seq<Job>, ListError>)
    ensures pid <= 0 ==> r == Ok(jobs)
    ensures pid > 0 ==> (r.Ok? <==> Listed(jobs, pid) || |jobs| < MAX_ARGS)
    ensures Listed(jobs, pid) ==> r == Ok(jobs)
    ensures pid > 0 && r.Ok? ==> Listed(r.value, pid)
    ensures pid > 0 && r.Ok? && !Listed(jobs, pid) ==> r.value == jobs + [Job(pid, SUSPENDED)]
  {
    if pid <= 0 || Listed(jobs, pid) then Ok(jobs) else AppendJob(jobs, pid, SUSPENDED)
  }

  /**
   * Ctrl+Z on a foreground command that is not listed: the handler lists it,
   * then `execute_command` sees it stopped and lists it a second time, and
   * after `fg` on the second entry ends the job its pid is still listed.
   */
  lemma CtrlZListsTwice(jobs: seq<Job>, pid: int)
    requires pid > 0 && |jobs| + 2 <= MAX_ARGS && !Listed(jobs, pid)
    ensures var once := HandlerStop(jobs, pid);
            && once.Ok?
            && var twice := AppendJob(once.value, pid, SUSPENDED);
            && twice.Ok?
            && twice.value == jobs + [Job(pid, SUSPENDED), Job(pid, SUSPENDED)]
            && !DistinctPids(twice.value)
            && Listed(Foreground(twice.value, |jobs| + 1, Ended).value, pid)
  {
    var twice := jobs + [Job(pid, SUSPENDED), Job(pid, SUSPENDED)];
    assert HandlerStop(jobs, pid).value + [Job(pid, SUSPENDED)] == twice;
    ForegroundEndedListing(twice, |jobs| + 1, pid);
    assert twice[|jobs|].pid == pid;
  }

  datatype ExitDecision = Refused | Terminates

  /** The `exit` built-in: the shell quits only when no background job is listed. */
  function Exit(jobs: seq<Job>): (r: ExitDecision)
    ensures r == Terminates <==> |jobs| == 0
  {
    if |jobs| > 0 then Refused else Terminates
  }
}

=== FILE: line_machine.dfy ===
/**
 * The record one line of the text pipeline (Project3/project3.c) carries, and the
 * four critical sections that act on it. Each worker touches a line only while it
 * holds that line's mutex, so every critical section is one atomic, pure step
 * `Line -> Line` here; the mutex itself is not modelled.
 */
module LineMachine {

  /** The codes stored in `line_status`. */
  const NOT_READ: int := 0
  const READ: int := 1
  /** Announced as "uppercased" in the declaration's comment, but no step ever assigns it. */
  const UPPERCASED: int := 2
  /** Both transforms done: the line waits for a writer. */
  const READY: int := 3
  const WRITTEN: int := 4

  /** `lines[i]`, `line_status[i]`, `upper_done[i]` and `replace_done[i]` of one index. */
  datatype Line = Line(content: string, status: int, upperDone: bool, replaceDone: bool)

  /** The record `main` sets up for a line just read from the file. */
  function NewLine(text: string): Line {
    Line(text, NOT_READ, false, false)
  }

  // ---------------------------------------------------------------------------
  // The two string transforms
  // ---------------------------------------------------------------------------

  predicate IsLowerAscii(c: char) {
    'a' <= c <= 'z'
  }

  /** `toupper` in the C locale: only the 26 ASCII lower-case letters change. */
  function ToUpperChar(c: char): (u: char)
    ensures !IsLowerAscii(u)
    ensures !IsLowerAscii(c) <==> u == c
    ensures IsLowerAscii(c) ==> 'A' <= u <= 'Z' && u as int + 32 == c as int
  {
    if IsLowerAscii(c) then (c as int - 32) as char else c
  }

  /** The in-place loop of `upper_thread`, applied to every character of the line. */
  function Upper(s: string): (r: string)
    ensures |r| == |s|
    ensures forall k :: 0 <= k < |s| ==> r[k] == ToUpperChar(s[k])
  {
    if s == [] then [] else [ToUpperChar(s[0])] + Upper(s[1..])
  }

  /** The in-place loop of `replace_thread`: every space becomes an underscore. */
  function Replace(s: string): (r: string)
    ensures |r| == |s|
    ensures forall k :: 0 <= k < |s| ==> s[k] == ' ' ==> r[k] == '_'
    ensures forall k :: 0 <= k < |s| ==> s[k] != ' ' ==> r[k] == s[k]
  {
    if s == [] then [] else [if s[0] == ' ' then '_' else s[0]] + Replace(s[1..])
  }

  /** Upper-casing neither creates nor removes spaces and underscores, so the order of the two transforms does not matter. */
  lemma UpperReplaceCommute(s: string)
    ensures Upper(Replace(s)) == Replace(Upper(s))
  {
  }

  /** Applying either transform a second time changes nothing. */
  lemma TransformsIdempotent(s: string)
    ensures Upper(Upper(s)) == Upper(s)
    ensures Replace(Replace(s)) == Replace(s)
  {
  }

  /** The content a line holds once the transforms whose flags are set have each run once. */
  function Transformed(original: string, upperDone: bool, replaceDone: bool): string {
    if upperDone && replaceDone then Replace(Upper(original))
    else if upperDone then Upper(original)
    else if replaceDone then Replace(original)
    else original
  }

  /**
   * What every line record satisfies between critical sections: status 2 never
   * occurs, an unread line has no transform applied, status 3 or 4 is reached
   * exactly when both transforms are done, and the content is the original with
   * each done transform applied exactly once.
   */
  predicate Consistent(l: Line, original: string) {
    && (l.status == NOT_READ || l.status == READ || l.status == READY || l.status == WRITTEN)
    && (l.status == NOT_READ ==> !l.upperDone && !l.replaceDone)
    && (l.status >= READY <==> l.upperDone && l.replaceDone)
    && l.content == Transformed(original, l.upperDone, l.replaceDone)
  }

  // ---------------------------------------------------------------------------
  // The four critical sections
  // ---------------------------------------------------------------------------

  predicate ReadFires(l: Line) {
    l.status == NOT_READ
  }

  /** One iteration of `read_thread` under the line's mutex. */
  function ReadStep(l: Line): (r: Line)
    ensures r != l <==> ReadFires(l)
    ensures ReadFires(l) ==> r.status == READ
    ensures r.content == l.content && r.upperDone == l.upperDone && r.replaceDone == l.replaceDone
  {
    if ReadFires(l) then l.(status := READ) else l
  }

  predicate UpperFires(l: Line) {
    l.status == READ && !l.upperDone
  }

  /** One iteration of `upper_thread` under the line's mutex. */
  function UpperStep(l: Line): (r: Line)
    ensures !UpperFires(l) ==> r == l
    ensures UpperFires(l) ==>
              && r.upperDone && r.replaceDone == l.replaceDone
              && |r.content| == |l.content|
              && (forall k :: 0 <= k < |l.content| ==> r.content[k] == ToUpperChar(l.content[k]))
              && (r.status == READY <==> l.replaceDone)
              && (r.status == READ <==> !l.replaceDone)
  {
    if UpperFires(l) then
      l.(content := Upper(l.content), upperDone := true, status := if l.replaceDone then READY else l.status)
    else l
  }

  predicate ReplaceFires(l: Line) {
    (l.status == READ || l.upperDone) && !l.replaceDone
  }

  /** One iteration of `replace_thread` under the line's mutex. */
  function ReplaceStep(l: Line): (r: Line)
    ensures !ReplaceFires(l) ==> r == l
    ensures ReplaceFires(l) ==>
              && r.replaceDone && r.upperDone == l.upperDone
              && |r.content| == |l.content|
              && (forall k :: 0 <= k < |l.content| ==> l.content[k] == ' ' ==> r.content[k] == '_')
              && (forall k :: 0 <= k < |l.content| ==> l.content[k] != ' ' ==> r.content[k] == l.content[k])
              && (r.status == READY <==> l.upperDone)
              && (!l.upperDone ==> r.status == READ)
  {
    if ReplaceFires(l) then
      l.(content := Replace(l.content), replaceDone := true, status := if l.upperDone then READY else l.status)
    else l
  }

  /**
   * One visit of `write_thread` to a line under its mutex; `ok` is whether
   * `fopen` and `fprintf` succeeded (the results of `fflush` and `fclose`
   * are not checked).
   */
  function WriteStep(l: Line, ok: bool): (r: Line)
    ensures r != l <==> l.status == READY && ok
    ensures l.status == READY && ok ==> r.status == WRITTEN
    ensures r.content == l.content && r.upperDone == l.upperDone && r.replaceDone == l.replaceDone
  {
    if l.status == READY && ok then l.(status := WRITTEN) else l
  }

  /** Running any step twice in a row has the effect of running it once. */
  lemma StepsIdempotent(l: Line, ok: bool)
    ensures ReadStep(ReadStep(l)) == ReadStep(l)
    ensures UpperStep(UpperStep(l)) == UpperStep(l)
    ensures ReplaceStep(ReplaceStep(l)) == ReplaceStep(l)
    ensures WriteStep(WriteStep(l, true), ok) == WriteStep(l, true)
  {
  }

  /** `r` is a possible later version of `l`: status and flags never go back, and a written line is frozen. */
  predicate Advances(l: Line, r: Line) {
    && l.status <= r.status
    && (l.upperDone ==> r.upperDone)
    && (l.replaceDone ==> r.replaceDone)
    && (l.status == WRITTEN ==> r == l)
  }

  lemma AdvancesTransitive(a: Line, b: Line, c: Line)
    requires Advances(a, b) && Advances(b, c)
    ensures Advances(a, c)
  {
  }

  /** Every step keeps a consistent line consistent and only moves it forward. */
  lemma StepsPreserveConsistency(l: Line, original: string, ok: bool)
    requires Consistent(l, original)
    ensures Consistent(ReadStep(l), original) && Advances(l, ReadStep(l))
    ensures Consistent(UpperStep(l), original) && Advances(l, UpperStep(l))
    ensures Consistent(ReplaceStep(l), original) && Advances(l, ReplaceStep(l))
    ensures Consistent(WriteStep(l, ok), original) && Advances(l, WriteStep(l, ok))
  {
  }

  // ---------------------------------------------------------------------------
  // Line text helpers
  // ---------------------------------------------------------------------------

  predicate EndsWithNewline(s: string) {
    |s| > 0 && s[|s| - 1] == '\n'
  }

  /** `remove_newline_copy`: a copy of the line without one trailing newline. */
  function RemoveNewline(s: string): (r: string)
    ensures EndsWithNewline(s) ==> r + "\n" == s
    ensures !EndsWithNewline(s) ==> r == s
    ensures |s| - 1 <= |r| <= |s|
  {
    if EndsWithNewline(s) then s[..|s| - 1] else s
  }

  /** Only one newline is removed, and text without a trailing newline comes back unchanged. */
  lemma RemoveNewlineUndoesOneNewline(s: string)
    ensures RemoveNewline(s + "\n") == s
    ensures RemoveNewline(RemoveNewline(s) + "\n") == RemoveNewline(s)
  {
  }

  /** The text a successful write appends: `fprintf(file, "%s\n", lines[index])`. */
  function WriteRecordAsWritten(content: string): string {
    content + "\n"
  }

  /**
   * Lines come from `fgets`, which keeps their newline, so the record the
   * writer appends ends in two newlines: an empty line follows every line.
   */
  lemma WriteRecordAsWrittenDoublesNewline(content: string)
    requires EndsWithNewline(content)
    ensures var rec := WriteRecordAsWritten(content);
            |rec| >= 2 && rec[|rec| - 2] == '\n' && rec[|rec| - 1] == '\n'
  {
  }

  /** Neither transform touches a newline, so a line ends in one after both exactly when it did before. */
  lemma TransformsKeepNewline(s: string)
    ensures EndsWithNewline(Replace(Upper(s))) <==> EndsWithNewline(s)
  {
    if |s| > 0 {
      var i, u := |s| - 1, Upper(s);
      var r := Replace(u);
      assert u[i] == ToUpperChar(s[i]);
      assert r[i] == if u[i] == ' ' then '_' else u[i];
    }
  }

  /** The record with the line's own newline dropped first, as the read step's log message does. */
  function WriteRecord(content: string): string {
    RemoveNewline(content) + "\n"
  }

  /**
   * A line as `fgets` delivers it (a newline only at its end, if at all) is
   * written back as exactly one newline-terminated line.
   */
  lemma WriteRecordKeepsLineStructure(content: string)
    requires forall k :: 0 <= k < |content| - 1 ==> content[k] != '\n'
    ensures EndsWithNewline(WriteRecord(content))
    ensures forall k :: 0 <= k < |WriteRecord(content)| - 1 ==> WriteRecord(content)[k] != '\n'
    ensures EndsWithNewline(content) ==> WriteRecord(content) == content
  {
  }
}

=== FILE: numerals.dfy ===
/**
 * The C library's `atoi` as Project2/myshell.c uses it on the index of
 * `history -i n`: leading white space is skipped, one sign is read, then the
 * leading decimal digits; anything after them is ignored.
 */
module Numerals {
  predicate IsDigit(c: char) {
    '0' <= c <= '9'
  }

  /** The characters `isspace` accepts in the C locale. */
  predicate IsSpace(c: char) {
    c == ' ' || c == '\t' || c == '\n' || c == '\U{B}' || c == '\U{C}' || c == '\r'
  }

  predicate AllDigits(s: string) {
    forall k :: 0 <= k < |s| ==> IsDigit(s[k])
  }

  /** The digits at the front of `s` read onto `acc`, most significant first. */
  function Accumulate(s: string, acc: nat): nat
    decreases |s|
  {
    if s == [] || !IsDigit(s[0]) then acc
    else Accumulate(s[1..], acc * 10 + (s[0] as int - '0' as int))
  }

  function Atoi(s: string): int
    decreases |s|
  {
    if s == [] then 0
    else if IsSpace(s[0]) then Atoi(s[1..])
    else if s[0] == '-' then -(Accumulate(s[1..], 0) as int)
    else if s[0] == '+' then Accumulate(s[1..], 0)
    else Accumulate(s, 0)
  }

  /** The decimal numeral of `n`, with no sign and no leading zero. */
  function Decimal(n: nat): (s: string)
    ensures |s| > 0 && AllDigits(s)
    ensures |s| > 1 ==> s[0] != '0'
    decreases n
  {
    if n < 10 then [('0' as int + n) as char]
    else Decimal(n / 10) + [('0' as int + n % 10) as char]
  }

  /** Reading stops at the first character that is not a digit. */
  lemma {:induction false} AccumulateDigitsThen(d: string, rest: string, acc: nat)
    requires AllDigits(d)
    ensures Accumulate(d + rest, acc) == Accumulate(rest, Accumulate(d, acc))
    decreases |d|
  {
    if d == [] {
      assert d + rest == rest;
    } else {
      assert (d + rest)[0] == d[0];
      assert (d + rest)[1..] == d[1..] + rest;
      AccumulateDigitsThen(d[1..], rest, acc * 10 + (d[0] as int - '0' as int));
    }
  }

  lemma {:induction false} AccumulateDecimal(n: nat)
    ensures Accumulate(Decimal(n), 0) == n
    decreases n
  {
    if n >= 10 {
      var last := ('0' as int + n % 10) as char;
      AccumulateDecimal(n / 10);
      AccumulateDigitsThen(Decimal(n / 10), [last], 0);
      assert [last][1..] == [];
    }
  }

  /** `atoi` reads back every numeral, with or without a minus sign, whatever non-digit text follows it. */
  lemma AtoiOfDecimal(n: nat, rest: string)
    requires rest == [] || !IsDigit(rest[0])
    ensures Atoi(Decimal(n) + rest) == n
    ensures Atoi("-" + (Decimal(n) + rest)) == -(n as int)
  {
    var plain := Decimal(n) + rest;
    AccumulateDecimal(n);
    AccumulateDigitsThen(Decimal(n), rest, 0);
    assert plain[0] == Decimal(n)[0] && IsDigit(plain[0]);
    assert Atoi(plain) == Accumulate(plain, 0);
    assert ("-" + plain)[1..] == plain;
  }
}

=== FILE: pipeline.dfy ===
/**
 * The whole text pipeline of Project3/project3.c as a transition system: the
 * line records, the shared `processed_lines` counter and the lines appended to
 * the output file. A run of the program is an interleaving of the critical
 * sections of the reader, upper, replace and writer threads; each one is an
 * `Action` here and acts on one line (and, for a write, on the counter).
 */
module Pipeline {
  import opened Wrappers
  import opened LineMachine

  /** Size of the global arrays; `read_file` does not check it. */
  const MAX_LINES: nat := 1000

  /**
   * `input` is what `read_file` stored, `lines` the per-line records,
   * `processed` is `processed_lines`, and `output` the contents whose records
   * `fprintf` accepted for `temp_output.txt`, in that order.
   */
  datatype State = State(input: seq<string>, lines: seq<Line>, processed: int, output: seq<string>)

  /** One critical section, on line `index`; `ok` says whether the writer's `fopen` and `fprintf` succeeded. */
  datatype Action =
    | ReadAt(index: nat)
    | UpperAt(index: nat)
    | ReplaceAt(index: nat)
    | WriteAt(index: nat, ok: bool)

  /** Contents of the written lines, in index order. */
  function WrittenContents(lines: seq<Line>): seq<string> {
    if lines == [] then []
    else (if lines[0].status == WRITTEN then [lines[0].content] else []) + WrittenContents(lines[1..])
  }

  /** Number of lines at status 4. */
  function CountWritten(lines: seq<Line>): nat {
    if lines == [] then 0
    else (if lines[0].status == WRITTEN then 1 else 0) + CountWritten(lines[1..])
  }

  /** What every line holds once it has been through both transforms. */
  function Finished(input: seq<string>): (r: seq<string>)
    ensures |r| == |input|
  {
    if input == [] then [] else [Replace(Upper(input[0]))] + Finished(input[1..])
  }

  lemma {:induction false} FinishedAt(input: seq<string>, i: nat)
    requires i < |input|
    ensures Finished(input)[i] == Replace(Upper(input[i]))
  {
    if i > 0 {
      FinishedAt(input[1..], i - 1);
    }
  }

  /** A line read with its newline reaches the output file as a record ending in two newlines. */
  lemma FinishedRecordDoublesNewline(input: seq<string>, i: nat)
    requires i < |input| && EndsWithNewline(input[i])
    ensures var rec := WriteRecordAsWritten(Finished(input)[i]);
            |rec| >= 2 && rec[|rec| - 2] == '\n' && rec[|rec| - 1] == '\n'
  {
    var f := Finished(input)[i];
    FinishedAt(input, i);
    TransformsKeepNewline(input[i]);
    assert EndsWithNewline(f);
    WriteRecordAsWrittenDoublesNewline(f);
  }

  /**
   * The invariant of every reachable state: each line is consistent with its
   * original text, the counter equals the number of appended lines, and the
   * appended lines are exactly the contents of the written lines.
   */
  predicate Inv(s: State) {
    && |s.lines| == |s.input|
    && (forall k :: 0 <= k < |s.lines| ==> Consistent(s.lines[k], s.input[k]))
    && s.processed == |s.output|
    && multiset(s.output) == multiset(WrittenContents(s.lines))
  }

  /** The state after `read_file` and the initialisation loop of `main`, before any thread starts. */
  function Init(input: seq<string>): (s: State)
    requires |input| <= MAX_LINES
    ensures |s.lines| == |input| && s.processed == 0 && s.output == []
    ensures forall k :: 0 <= k < |input| ==> s.lines[k] == NewLine(input[k])
  {
    State(input, seq(|input|, k requires 0 <= k < |input| => NewLine(input[k])), 0, [])
  }

  lemma {:induction false} NoneWrittenInitially(lines: seq<Line>)
    requires forall k :: 0 <= k < |lines| ==> lines[k].status == NOT_READ
    ensures WrittenContents(lines) == []
  {
    if lines != [] {
      NoneWrittenInitially(lines[1..]);
    }
  }

  lemma InitEstablishesInv(input: seq<string>)
    requires |input| <= MAX_LINES
    ensures Inv(Init(input))
  {
    NoneWrittenInitially(Init(input).lines);
  }

  /** The effect of one critical section. */
  function Step(s: State, a: Action): (r: State)
    requires a.index < |s.lines|
    ensures r.input == s.input && |r.lines| == |s.lines|
    ensures forall k :: 0 <= k < |s.lines| && k != a.index ==> r.lines[k] == s.lines[k]
    ensures !a.WriteAt? ==> r.processed == s.processed && r.output == s.output
    ensures a.WriteAt? && !a.ok ==> r == s
    ensures a.WriteAt? && s.lines[a.index].status != READY ==> r == s
    ensures a.WriteAt? && a.ok && s.lines[a.index].status == READY ==>
              && r.lines[a.index].status == WRITTEN
              && r.processed == s.processed + 1
              && r.output == s.output + [s.lines[a.index].content]
  {
    var l := s.lines[a.index];
    match a
    case ReadAt(i) => s.(lines := s.lines[i := ReadStep(l)])
    case UpperAt(i) => s.(lines := s.lines[i := UpperStep(l)])
    case ReplaceAt(i) => s.(lines := s.lines[i := ReplaceStep(l)])
    case WriteAt(i, ok) =>
      if l.status == READY && ok then
        s.(lines := s.lines[i := WriteStep(l, ok)], processed := s.processed + 1, output := s.output + [l.content])
      else s
  }

  /** Replacing a line by one that is written exactly when the old one was, and identical if so, leaves the written contents alone. */
  lemma {:induction false} WrittenContentsUnchanged(lines: seq<Line>, i: nat, l: Line)
    requires i < |lines|
    requires lines[i].status == WRITTEN || l.status == WRITTEN ==> l == lines[i]
    ensures WrittenContents(lines[i := l]) == WrittenContents(lines)
  {
    if i > 0 {
      assert lines[i := l][1..] == lines[1..][i - 1 := l];
      WrittenContentsUnchanged(lines[1..], i - 1, l);
    }
  }

  /** Writing line `i` adds its content to the written contents. */
  lemma {:induction false} WrittenContentsGrow(lines: seq<Line>, i: nat, l: Line)
    requires i < |lines|
    requires lines[i].status != WRITTEN && l.status == WRITTEN
    ensures multiset(WrittenContents(lines[i := l])) == multiset(WrittenContents(lines)) + multiset{l.content}
  {
    if i == 0 {
      assert lines[i := l][1..] == lines[1..];
    } else {
      assert lines[i := l][1..] == lines[1..][i - 1 := l];
      WrittenContentsGrow(lines[1..], i - 1, l);
    }
  }

  /** Every critical section preserves the invariant. */
  lemma StepPreservesInv(s: State, a: Action)
    requires Inv(s) && a.index < |s.lines|
    ensures Inv(Step(s, a))
  {
    var i := a.index;
    var l := s.lines[i];
    var r := Step(s, a);
    StepsPreserveConsistency(l, s.input[i], a.WriteAt? && a.ok);
    assert Consistent(r.lines[i], s.input[i]);
    if a.WriteAt? && a.ok && l.status == READY {
      assert r.lines == s.lines[i := WriteStep(l, true)];
      WrittenContentsGrow(s.lines, i, WriteStep(l, true));
    } else if !a.WriteAt? {
      assert r.lines == s.lines[i := r.lines[i]];
      WrittenContentsUnchanged(s.lines, i, r.lines[i]);
    }
  }

  /** Every action of `acts` names an existing line (the threads only visit indices below `total_lines`). */
  predicate InRange(n: nat, acts: seq<Action>) {
    forall k :: 0 <= k < |acts| ==> acts[k].index < n
  }

  /** The state after the critical sections `acts`, in that order. */
  function Run(s: State, acts: seq<Action>): (r: State)
    requires InRange(|s.lines|, acts)
    ensures r.input == s.input && |r.lines| == |s.lines|
    decreases |acts|
  {
    if acts == [] then s else Run(Step(s, acts[0]), acts[1..])
  }

  /** Every interleaving of critical sections preserves the invariant. */
  lemma {:induction false} RunPreservesInv(s: State, acts: seq<Action>)
    requires Inv(s) && InRange(|s.lines|, acts)
    ensures Inv(Run(s, acts))
    decreases |acts|
  {
    if acts != [] {
      StepPreservesInv(s, acts[0]);
      RunPreservesInv(Step(s, acts[0]), acts[1..]);
    }
  }

  /** From `s` to `r`, no line moves back, the counter does not decrease and the output only grows at its end. */
  predicate Progress(s: State, r: State)
    requires |r.lines| == |s.lines|
  {
    && (forall k :: 0 <= k < |s.lines| ==> Advances(s.lines[k], r.lines[k]))
    && s.processed <= r.processed
    && s.output <= r.output
  }

  lemma StepProgresses(s: State, a: Action)
    requires Inv(s) && a.index < |s.lines|
    ensures Progress(s, Step(s, a))
  {
  }

  /** Along any interleaving, no status or flag goes back and the counter never decreases. */
  lemma {:induction false} RunProgresses(s: State, acts: seq<Action>)
    requires Inv(s) && InRange(|s.lines|, acts)
    ensures Progress(s, Run(s, acts))
    decreases |acts|
  {
    if acts != [] {
      var t := Step(s, acts[0]);
      StepProgresses(s, acts[0]);
      StepPreservesInv(s, acts[0]);
      RunProgresses(t, acts[1..]);
      var r := Run(t, acts[1..]);
      forall k | 0 <= k < |s.lines|
        ensures Advances(s.lines[k], r.lines[k])
      {
        AdvancesTransitive(s.lines[k], t.lines[k], r.lines[k]);
      }
    }
  }

  lemma {:induction false} WrittenCountMatches(lines: seq<Line>)
    ensures |WrittenContents(lines)| == CountWritten(lines) <= |lines|
    ensures CountWritten(lines) == |lines| <==> forall k :: 0 <= k < |lines| ==> lines[k].status == WRITTEN
  {
    if lines != [] {
      WrittenCountMatches(lines[1..]);
      if CountWritten(lines) == |lines| {
        forall k | 0 <= k < |lines|
          ensures lines[k].status == WRITTEN
        {
          if k > 0 {
            assert lines[1..][k - 1] == lines[k];
          }
        }
      }
    }
  }

  /** `processed_lines` always equals the number of written lines, so it stays within 0..total_lines. */
  lemma CounterCountsWritten(s: State)
    requires Inv(s)
    ensures s.processed == CountWritten(s.lines)
    ensures 0 <= s.processed <= |s.input|
  {
    WrittenCountMatches(s.lines);
    assert |multiset(s.output)| == |multiset(WrittenContents(s.lines))|;
  }

  /** The test after each writer sweep: `processed_lines >= total_lines`. */
  predicate WriterMayExit(s: State) {
    s.processed >= |s.input|
  }

  /** A writer leaves its loop exactly when every line has been written. */
  lemma WriterExitsOnlyWhenAllWritten(s: State)
    requires Inv(s)
    ensures WriterMayExit(s) <==> forall k :: 0 <= k < |s.lines| ==> s.lines[k].status == WRITTEN
  {
    CounterCountsWritten(s);
    WrittenCountMatches(s.lines);
  }

  lemma {:induction false} AllWrittenContents(lines: seq<Line>, input: seq<string>)
    requires |lines| == |input|
    requires forall k :: 0 <= k < |lines| ==> Consistent(lines[k], input[k]) && lines[k].status == WRITTEN
    ensures WrittenContents(lines) == Finished(input)
  {
    if lines != [] {
      AllWrittenContents(lines[1..], input[1..]);
    }
  }

  /**
   * Once every line is written, the output holds each input line upper-cased
   * and with its spaces replaced, once each, in some order.
   */
  lemma CompletedOutput(s: State)
    requires Inv(s)
    requires forall k :: 0 <= k < |s.lines| ==> s.lines[k].status == WRITTEN
    ensures multiset(s.output) == multiset(Finished(s.input))
    ensures |s.output| == |s.input|
  {
    AllWrittenContents(s.lines, s.input);
    assert |multiset(s.output)| == |multiset(Finished(s.input))|;
  }

  lemma {:induction false} RunAppend(s: State, a: seq<Action>, b: seq<Action>)
    requires InRange(|s.lines|, a + b)
    ensures InRange(|s.lines|, a) && InRange(|Run(s, a).lines|, b)
    ensures Run(s, a + b) == Run(Run(s, a), b)
    decreases |a|
  {
    assert forall k :: 0 <= k < |a| ==> (a + b)[k] == a[k];
    assert forall k :: 0 <= k < |b| ==> (a + b)[|a| + k] == b[k];
    if a == [] {
      assert a + b == b;
    } else {
      assert (a + b)[1..] == a[1..] + b;
      RunAppend(Step(s, a[0]), a[1..], b);
    }
  }

  /** The four kinds of worker thread. */
  datatype Role = Reader | Upperer | Replacer | Writer

  /** The critical section a worker of `role` runs at index `i`; writers are given successful appends. */
  function ActionOf(role: Role, i: nat): (a: Action)
    ensures a.index == i
  {
    match role
    case Reader => ReadAt(i)
    case Upperer => UpperAt(i)
    case Replacer => ReplaceAt(i)
    case Writer => WriteAt(i, true)
  }

  /** One worker's sweep over the indices `from` to `n - 1`, in order. */
  function Sweep(role: Role, from: nat, n: nat): (acts: seq<Action>)
    requires from <= n
    ensures |acts| == n - from
    ensures forall k :: 0 <= k < |acts| ==> acts[k] == ActionOf(role, from + k)
    decreases n - from
  {
    if from == n then [] else [ActionOf(role, from)] + Sweep(role, from + 1, n)
  }

  /** A status with the two flags. */
  datatype Stage = Stage(status: int, upperDone: bool, replaceDone: bool)

  function Before(role: Role): Stage {
    match role
    case Reader => Stage(NOT_READ, false, false)
    case Upperer => Stage(READ, false, false)
    case Replacer => Stage(READ, true, false)
    case Writer => Stage(READY, true, true)
  }

  function After(role: Role): Stage {
    match role
    case Reader => Stage(READ, false, false)
    case Upperer => Stage(READ, true, false)
    case Replacer => Stage(READY, true, true)
    case Writer => Stage(WRITTEN, true, true)
  }

  predicate AtStage(l: Line, original: string, st: Stage) {
    && l.status == st.status
    && l.upperDone == st.upperDone
    && l.replaceDone == st.replaceDone
    && l.content == Transformed(original, st.upperDone, st.replaceDone)
  }

  /** The critical section of `role` on a line at that role's stage moves it to the next stage. */
  lemma StepAlone(s: State, role: Role, i: nat)
    requires |s.lines| == |s.input| && i < |s.lines|
    requires AtStage(s.lines[i], s.input[i], Before(role))
    ensures var t := Step(s, ActionOf(role, i));
            && AtStage(t.lines[i], t.input[i], After(role))
            && t.output == s.output + (if role == Writer then [Finished(s.input)[i]] else [])
            && t.processed == s.processed + (if role == Writer then 1 else 0)
  {
    FinishedAt(s.input, i);
  }

  /** The lines before `from` are past the stage of `role`, the others at it. */
  predicate SweptUpTo(s: State, role: Role, from: nat) {
    && |s.lines| == |s.input| && from <= |s.lines|
    && (forall k :: 0 <= k < from ==> AtStage(s.lines[k], s.input[k], After(role)))
    && (forall k :: from <= k < |s.lines| ==> AtStage(s.lines[k], s.input[k], Before(role)))
  }

  lemma SweepOneMore(s: State, role: Role, from: nat)
    requires SweptUpTo(s, role, from) && from < |s.lines|
    ensures SweptUpTo(Step(s, ActionOf(role, from)), role, from + 1)
  {
  }

  /** A sweep that runs alone moves every line from its role's stage to the next one. */
  lemma {:induction false} SweepAlone(s: State, role: Role, from: nat)
    requires SweptUpTo(s, role, from)
    ensures SweptUpTo(Run(s, Sweep(role, from, |s.lines|)), role, |s.lines|)
    decreases |s.lines| - from
  {
    var n := |s.lines|;
    if from < n {
      var acts := Sweep(role, from, n);
      SweepOneMore(s, role, from);
      assert acts[1..] == Sweep(role, from + 1, n);
      SweepAlone(Step(s, acts[0]), role, from + 1);
    }
  }

  /** A writer's sweep that runs alone appends the finished lines in index order. */
  lemma {:induction false} WriterSweepAlone(s: State, from: nat)
    requires SweptUpTo(s, Writer, from)
    ensures var r := Run(s, Sweep(Writer, from, |s.lines|));
            && r.output == s.output + Finished(s.input)[from..]
            && r.processed == s.processed + |s.lines| - from
    decreases |s.lines| - from
  {
    var n := |s.lines|;
    if from == n {
      assert Finished(s.input)[from..] == [];
    } else {
      var acts := Sweep(Writer, from, n);
      StepAlone(s, Writer, from);
      SweepOneMore(s, Writer, from);
      assert acts[1..] == Sweep(Writer, from + 1, n);
      var t := Step(s, acts[0]);
      WriterSweepAlone(t, from + 1);
      AppendNext(s.output, Finished(s.input), from);
    }
  }

  /** Appending the element at `i` and then the rest of `f` appends the suffix of `f` from `i`. */
  lemma AppendNext(out: seq<string>, f: seq<string>, i: nat)
    requires i < |f|
    ensures (out + [f[i]]) + f[i + 1..] == out + f[i..]
  {
    assert f[i..] == [f[i]] + f[i + 1..];
  }

  /** Sweeps of the other roles leave the output and the counter alone. */
  lemma {:induction false} OtherSweepsWriteNothing(s: State, role: Role, from: nat)
    requires role != Writer && from <= |s.lines|
    ensures var r := Run(s, Sweep(role, from, |s.lines|));
            r.output == s.output && r.processed == s.processed
    decreases |s.lines| - from
  {
    var n := |s.lines|;
    if from < n {
      var acts := Sweep(role, from, n);
      assert acts[1..] == Sweep(role, from + 1, n);
      OtherSweepsWriteNothing(Step(s, acts[0]), role, from + 1);
    }
  }

  lemma WriterSweptMeansWritten(s: State)
    requires SweptUpTo(s, Writer, |s.lines|)
    ensures forall k :: 0 <= k < |s.lines| ==> s.lines[k].status == WRITTEN
  {
  }

  /** After a full sweep of one role alone, every line is at the stage the next role starts from. */
  lemma HandOver(s: State, role: Role, next: Role)
    requires SweptUpTo(s, role, 0) && After(role) == Before(next)
    ensures SweptUpTo(Run(s, Sweep(role, 0, |s.lines|)), next, 0)
  {
    SweepAlone(s, role, 0);
  }

  /** The full sweeps of the reader, upper-caser and replacer, one after the other. */
  function Preparation(n: nat): (acts: seq<Action>)
    ensures InRange(n, acts)
  {
    Sweep(Reader, 0, n) + Sweep(Upperer, 0, n) + Sweep(Replacer, 0, n)
  }

  lemma PreparationAlone(input: seq<string>)
    requires |input| <= MAX_LINES
    ensures var r := Run(Init(input), Preparation(|input|));
            SweptUpTo(r, Writer, 0) && r.output == [] && r.processed == 0
  {
    var n := |input|;
    var s0 := Init(input);
    var a1, a2, a3 := Sweep(Reader, 0, n), Sweep(Upperer, 0, n), Sweep(Replacer, 0, n);
    HandOver(s0, Reader, Upperer);
    OtherSweepsWriteNothing(s0, Reader, 0);
    var s1 := Run(s0, a1);
    HandOver(s1, Upperer, Replacer);
    OtherSweepsWriteNothing(s1, Upperer, 0);
    var s2 := Run(s1, a2);
    HandOver(s2, Replacer, Writer);
    OtherSweepsWriteNothing(s2, Replacer, 0);
    RunAppend(s0, a1, a2);
    RunAppend(s0, a1 + a2, a3);
  }

  /**
   * One schedule that finishes: one reader, then one upper-caser, then one
   * replacer, then one writer, each sweeping all lines once with no
   * interleaving.
   */
  function SequentialSchedule(n: nat): (acts: seq<Action>)
    ensures InRange(n, acts)
  {
    var prep, write := Preparation(n), Sweep(Writer, 0, n);
    assert forall k :: 0 <= k < |write| ==> write[k].index < n;
    prep + write
  }

  /** Under the sequential schedule every line is written, the output is every finished line in input order, and the writer may leave its loop. */
  lemma SequentialScheduleCompletes(input: seq<string>)
    requires |input| <= MAX_LINES
    ensures var r := Run(Init(input), SequentialSchedule(|input|));
            && (forall k :: 0 <= k < |input| ==> r.lines[k].status == WRITTEN)
            && r.output == Finished(input)
            && WriterMayExit(r)
  {
    var n := |input|;
    var prep := Preparation(n);
    var write := Sweep(Writer, 0, n);
    assert SequentialSchedule(n) == prep + write;
    PreparationAlone(input);
    WritingAlone(Run(Init(input), prep));
    RunAppend(Init(input), prep, write);
  }

  lemma WritingAlone(s: State)
    requires SweptUpTo(s, Writer, 0) && s.output == [] && s.processed == 0
    ensures var r := Run(s, Sweep(Writer, 0, |s.lines|));
            && (forall k :: 0 <= k < |s.lines| ==> r.lines[k].status == WRITTEN)
            && r.output == Finished(s.input)
            && WriterMayExit(r)
  {
    SweepAlone(s, Writer, 0);
    WriterSweepAlone(s, 0);
    assert Finished(s.input)[0..] == Finished(s.input);
    WriterSweptMeansWritten(Run(s, Sweep(Writer, 0, |s.lines|)));
  }

  /**
   * Writers append lines as they become ready, so the output need not follow
   * the input order. In this run on two lines as `fgets` returns them, each
   * with its newline, every thread visits the indices in increasing
   * order, as its loop does: the reader reads lines 0 and 1; the writer
   * visits line 0 before it is ready; the upper-caser and the replacer each
   * sweep lines 0 and 1; the writer then reaches line 1 and writes it, and its
   * next sweep writes line 0.
   */
  lemma OutputOrderNotGuaranteed()
    ensures var acts := [ReadAt(0), ReadAt(1), WriteAt(0, true), UpperAt(0), UpperAt(1),
                         ReplaceAt(0), ReplaceAt(1), WriteAt(1, true), WriteAt(0, true)];
            && InRange(2, acts)
            && Run(Init(["a\n", "b\n"]), acts).output == ["B\n", "A\n"]
  {
    var first := [ReadAt(0), ReadAt(1), WriteAt(0, true), UpperAt(0), UpperAt(1)];
    var second := [ReplaceAt(0), ReplaceAt(1), WriteAt(1, true), WriteAt(0, true)];
    assert first + second == [ReadAt(0), ReadAt(1), WriteAt(0, true), UpperAt(0), UpperAt(1),
                              ReplaceAt(0), ReplaceAt(1), WriteAt(1, true), WriteAt(0, true)];
    BothUpperCased();
    BothWrittenInReverse();
    RunAppend(Init(["a\n", "b\n"]), first, second);
  }

  /** The first five sections of the schedule above: both lines read and upper-cased, none written. */
  lemma BothUpperCased()
    ensures Run(Init(["a\n", "b\n"]), [ReadAt(0), ReadAt(1), WriteAt(0, true), UpperAt(0), UpperAt(1)])
            == State(["a\n", "b\n"], [Line("A\n", READ, true, false), Line("B\n", READ, true, false)], 0, [])
  {
    var s2 := State(["a\n", "b\n"], [Line("a\n", READ, false, false), Line("b\n", READ, false, false)], 0, []);
    var s3 := s2.(lines := [Line("A\n", READ, true, false), s2.lines[1]]);
    BothRead();
    assert Upper("a\n") == "A\n" && Upper("b\n") == "B\n";
    RunCons(s2, UpperAt(0), [UpperAt(1)]);
    RunCons(s3, UpperAt(1), []);
  }

  /** The first three sections: both lines read, and the writer's visit to line 0 changes nothing. */
  lemma BothRead()
    ensures Run(Init(["a\n", "b\n"]), [ReadAt(0), ReadAt(1), WriteAt(0, true), UpperAt(0), UpperAt(1)])
            == Run(State(["a\n", "b\n"], [Line("a\n", READ, false, false), Line("b\n", READ, false, false)], 0, []),
                   [UpperAt(0), UpperAt(1)])
  {
    var s0 := Init(["a\n", "b\n"]);
    var s1 := State(["a\n", "b\n"], [Line("a\n", READ, false, false), Line("b\n", NOT_READ, false, false)], 0, []);
    var s2 := s1.(lines := [s1.lines[0], Line("b\n", READ, false, false)]);
    assert s0.lines == [NewLine("a\n"), NewLine("b\n")];
    RunCons(s0, ReadAt(0), [ReadAt(1), WriteAt(0, true), UpperAt(0), UpperAt(1)]);
    RunCons(s1, ReadAt(1), [WriteAt(0, true), UpperAt(0), UpperAt(1)]);
    RunCons(s2, WriteAt(0, true), [UpperAt(0), UpperAt(1)]);
  }

  /** The last four sections of the schedule above: line 1 reaches the file before line 0. */
  lemma BothWrittenInReverse()
    ensures Run(State(["a\n", "b\n"], [Line("A\n", READ, true, false), Line("B\n", READ, true, false)], 0, []),
                [ReplaceAt(0), ReplaceAt(1), WriteAt(1, true), WriteAt(0, true)]).output == ["B\n", "A\n"]
  {
    var s4 := State(["a\n", "b\n"], [Line("A\n", READ, true, false), Line("B\n", READ, true, false)], 0, []);
    var s5 := s4.(lines := [Line("A\n", READY, true, true), s4.lines[1]]);
    var s6 := s5.(lines := [s5.lines[0], Line("B\n", READY, true, true)]);
    var s7 := State(["a\n", "b\n"], [s6.lines[0], Line("B\n", WRITTEN, true, true)], 1, ["B\n"]);
    assert Replace("A\n") == "A\n" && Replace("B\n") == "B\n";
    RunCons(s4, ReplaceAt(0), [ReplaceAt(1), WriteAt(1, true), WriteAt(0, true)]);
    RunCons(s5, ReplaceAt(1), [WriteAt(1, true), WriteAt(0, true)]);
    RunCons(s6, WriteAt(1, true), [WriteAt(0, true)]);
    RunCons(s7, WriteAt(0, true), []);
  }

  /** Running `a` and then `rest` is running `rest` from the state `a` leads to. */
  lemma RunCons(s: State, a: Action, rest: seq<Action>)
    requires a.index < |s.lines| && InRange(|s.lines|, rest)
    ensures InRange(|s.lines|, [a] + rest)
    ensures Run(s, [a] + rest) == Run(Step(s, a), rest)
  {
    assert ([a] + rest)[1..] == rest;
  }


  /** The thread counts given on the command line. */
  datatype ThreadCounts = ThreadCounts(readers: int, uppers: int, replacers: int, writers: int)

  datatype ConfigError = NonPositiveThreadCount

  /** The validation in `main` before any thread is created. */
  function ValidateThreadCounts(c: ThreadCounts): (r: Result<ThreadCounts, ConfigError>)
    ensures r.Ok? <==> c.readers > 0 && c.uppers > 0 && c.replacers > 0 && c.writers > 0
    ensures r.Ok? ==> r.value == c
  {
    if c.readers <= 0 || c.uppers <= 0 || c.replacers <= 0 || c.writers <= 0 then Err(NonPositiveThreadCount)
    else Ok(c)
  }
}

=== FILE: tokenizer.dfy ===
/**
 * The splitting `strtok(…, " \t\n")` performs in `parse_command`
 * (Project2/myshell.c): a line becomes the maximal runs of characters that are
 * not a space, a tab or a newline, in order.
 */
module Tokenizer {

  predicate IsDelimiter(c: char) {
    c == ' ' || c == '\t' || c == '\n'
  }

  /** A string `strtok` can return: non-empty and free of delimiters. */
  predicate IsToken(t: string) {
    |t| > 0 && forall k :: 0 <= k < |t| ==> !IsDelimiter(t[k])
  }

  /** Length of the run of non-delimiters at the front of `s`. */
  function TokenLength(s: string): (n: nat)
    ensures n <= |s|
    ensures forall k :: 0 <= k < n ==> !IsDelimiter(s[k])
    ensures n < |s| ==> IsDelimiter(s[n])
  {
    if s == [] || IsDelimiter(s[0]) then 0 else 1 + TokenLength(s[1..])
  }

  /** The tokens successive `strtok` calls return on `s`. */
  function Tokens(s: string): (ts: seq<string>)
    ensures forall k :: 0 <= k < |ts| ==> IsToken(ts[k])
    decreases |s|
  {
    if s == [] then []
    else if IsDelimiter(s[0]) then Tokens(s[1..])
    else
      var n := TokenLength(s);
      [s[..n]] + Tokens(s[n..])
  }

  /** Tokens written back with one space after each. */
  function Join(ts: seq<string>): string {
    if ts == [] then "" else ts[0] + " " + Join(ts[1..])
  }

  /** Splitting undoes joining: no token is lost, split or merged. */
  lemma {:induction false} TokensOfJoin(ts: seq<string>)
    requires forall k :: 0 <= k < |ts| ==> IsToken(ts[k])
    ensures Tokens(Join(ts)) == ts
  {
    if ts != [] {
      var t := ts[0];
      var rest := Join(ts[1..]);
      var s := t + " " + rest;
      assert s == Join(ts);
      var n := TokenLength(s);
      assert s[|t|] == ' ';
      assert n == |t|;
      assert s[..n] == t;
      assert s[n..] == " " + rest;
      assert (" " + rest)[1..] == rest;
      TokensOfJoin(ts[1..]);
    }
  }

  /** A string made only of delimiters, possibly empty. */
  predicate IsDelimiterRun(d: string) {
    forall k :: 0 <= k < |d| ==> IsDelimiter(d[k])
  }

  /** `gaps[0]`, then each token followed by the next gap. */
  function Layout(ts: seq<string>, gaps: seq<string>): string
    requires |gaps| == |ts| + 1
    decreases |ts|
  {
    if ts == [] then gaps[0] else gaps[0] + ts[0] + Layout(ts[1..], gaps[1..])
  }

  /** Gaps are delimiter runs, and those between two tokens are not empty. */
  predicate ValidGaps(ts: seq<string>, gaps: seq<string>) {
    && |gaps| == |ts| + 1
    && (forall k :: 0 <= k < |gaps| ==> IsDelimiterRun(gaps[k]))
    && (forall k :: 0 < k < |ts| ==> gaps[k] != [])
  }

  /** Delimiters in front of the text are skipped. */
  lemma {:induction false} TokensSkipDelimiters(d: string, rest: string)
    requires IsDelimiterRun(d)
    ensures Tokens(d + rest) == Tokens(rest)
    decreases |d|
  {
    if d != [] {
      assert (d + rest)[0] == d[0] && IsDelimiter(d[0]);
      assert (d + rest)[1..] == d[1..] + rest;
      assert Tokens(d + rest) == Tokens(d[1..] + rest);
      TokensSkipDelimiters(d[1..], rest);
    } else {
      assert d + rest == rest;
    }
  }

  /** A token followed by the end of the text or by a delimiter is returned whole. */
  lemma TokensTakeWholeToken(t: string, rest: string)
    requires IsToken(t)
    requires rest == [] || IsDelimiter(rest[0])
    ensures Tokens(t + rest) == [t] + Tokens(rest)
  {
    var s := t + rest;
    var n := TokenLength(s);
    if |t| < |s| {
      assert s[|t|] == rest[0];
    }
    assert n == |t|;
    assert s[..n] == t && s[n..] == rest;
  }

  /**
   * `strtok` splits at every run of delimiters, however long, and ignores
   * runs at either end: tokens laid out with any such gaps come back exactly.
   */
  lemma {:induction false} TokensOfLayout(ts: seq<string>, gaps: seq<string>)
    requires forall k :: 0 <= k < |ts| ==> IsToken(ts[k])
    requires ValidGaps(ts, gaps)
    ensures Tokens(Layout(ts, gaps)) == ts
    decreases |ts|
  {
    if ts == [] {
      TokensSkipDelimiters(gaps[0], []);
      assert gaps[0] + [] == gaps[0];
    } else {
      var rest := Layout(ts[1..], gaps[1..]);
      assert ValidGaps(ts[1..], gaps[1..]) by {
        forall k | 0 < k < |ts[1..]|
          ensures gaps[1..][k] != []
        {
          assert gaps[1..][k] == gaps[k + 1];
        }
      }
      TokensOfLayout(ts[1..], gaps[1..]);
      assert rest == [] || IsDelimiter(rest[0]) by {
        if |ts| > 1 {
          assert rest == gaps[1] + ts[1] + Layout(ts[2..], gaps[2..]);
          assert gaps[1] != [] && IsDelimiter(gaps[1][0]);
        } else {
          assert rest == gaps[1];
        }
      }
      TokensTakeWholeToken(ts[0], rest);
      TokensSkipDelimiters(gaps[0], ts[0] + rest);
      assert Layout(ts, gaps) == gaps[0] + (ts[0] + rest);
    }
  }

  /** The text with every delimiter removed. */
  function StripDelimiters(s: string): string {
    if s == [] then "" else (if IsDelimiter(s[0]) then "" else [s[0]]) + StripDelimiters(s[1..])
  }

  function Concat(ts: seq<string>): string {
    if ts == [] then "" else ts[0] + Concat(ts[1..])
  }

  lemma {:induction false} StripNonDelimiterPrefix(s: string, n: nat)
    requires n <= |s|
    requires forall k :: 0 <= k < n ==> !IsDelimiter(s[k])
    ensures StripDelimiters(s) == s[..n] + StripDelimiters(s[n..])
  {
    if n > 0 {
      StripNonDelimiterPrefix(s[1..], n - 1);
      assert s[1..][..n - 1] == s[1..n];
      assert s[1..][n - 1..] == s[n..];
      assert s[..n] == [s[0]] + s[1..n];
    }
  }

  /** The tokens, concatenated, are the line minus its delimiters: only delimiters are dropped. */
  lemma {:induction false} TokensKeepEveryOtherCharacter(s: string)
    ensures Concat(Tokens(s)) == StripDelimiters(s)
    decreases |s|
  {
    if s != [] {
      if IsDelimiter(s[0]) {
        TokensKeepEveryOtherCharacter(s[1..]);
      } else {
        var n := TokenLength(s);
        TokensKeepEveryOtherCharacter(s[n..]);
        StripNonDelimiterPrefix(s, n);
      }
    }
  }
}

=== FILE: wrappers.dfy ===
/** Failure-carrying results shared by the models of both programs. */
module Wrappers {

  /** A value that may be absent: the model of a C pointer that may be NULL. */
  datatype Option<+T> = None | Some(value: T)

  /** Either a value or the error the C code reports on stderr instead of producing one. */
  datatype Result<+T, +E> = Ok(value: T) | Err(error: E)
}
